=== FILE: README.md ===
# rpsql terminal core in Dafny

A model of the interactive core of rpsql, a small PostgreSQL terminal client written in Rust. It has six parts:

- **Cursor geometry** (`Geometry`, from `TermPos` in src/ui/text_input.rs). This is the line editor's state:
  - the buffer of characters and the cursor index into it;
  - the 1-based screen column `x`;
  - `dY`, the number of wrapped rows between the prompt row and the cursor row;
  - the prompt row `y`;
  - the terminal size and the prompt length.

  Its class invariant `x + dY*maxX == promptLen + index + 1` with `1 <= x <= maxX` holds across every editing and motion operation (`Geometry.Valid`).
- **Line editor** (`TextInput`, src/ui/text_input.rs). It dispatches normalised key events to the geometry. It reports what the caller must act on: quit, history prev/next, or the submitted buffer.
- **Input normalisation** (`Events`, src/ui/event.rs). termion's keys, mouse events and unrecognised byte sequences become key chords. This includes the xterm and rxvt encodings of ctrl+arrow.
- **Scrollback history** (`Scrollback`, src/history.rs). Submitted lines are kept newest first, with adjacent duplicates suppressed. A browsing cursor runs from -1 ("not browsing") to the oldest entry. `Session.Submit` is the outer loop's submit step (src/ui/event_loop.rs): push the line, then stop browsing.
- **Pager** (`Pager`, src/ui/text_view.rs). A terminal-sized window over fixed result rows, moved one row or column at a time and clamped to the content.
- **Password file** (`PgPass`, src/pgpass.rs). It covers:
  - the permission check on the file's mode;
  - splitting a line on `:` into host, port, database, user and password;
  - wildcard matching;
  - the comment filter.

  The reader always returns no password.

Two more modules complete the model. `LegacyUi` models the older editor in src/ui.rs: `reset`, `char` with its Enter branch, the row bookkeeping of the `display_*_on_new_line` functions, and the key loop of `get_input`. Its motions are the same code as the current editor, so it reuses `Geometry`. `Chars` holds `char::is_whitespace` (the Unicode White_Space property), the reversed-buffer view and `Iterator::position` that the word motions are built from. `Options` holds the `Option` type.

The terminal is a parameter throughout: its width and height, and the row the prompt starts on, are passed in. Nothing is drawn. Only the state that drawing reads is modelled.

## Model

| member | source | states |
|---|---|---|
| Chars.IsWhitespace | src/ui/text_input.rs:126-130 | `char::is_whitespace`, the characters with the Unicode White_Space property, used by both word scans |
| Chars.Reverse | src/ui/text_input.rs:124-126 | The reversed buffer `iter().rev()` walks: same length, element i is the buffer's element len-1-i |
| Chars.Position | src/ui/text_input.rs:126-130 | `position`: the first index whose whitespace-ness is the one sought, None exactly when no element qualifies |
| Geometry.New | src/ui/text_input.rs:19-32 | An empty buffer with the cursor right after the prompt on the given row; valid whenever the prompt fits on one row |
| Geometry.Canonical | src/ui/text_input.rs:34-36 | The invariant determines the geometry: x - 1 and dY are the remainder and quotient of promptLen + index by the width |
| Geometry.SameIndexSamePos | src/ui/text_input.rs:38-76 | Two valid states over the same buffer, row and index are identical, so column and wrapped row never drift from the index |
| Geometry.MaxDy | src/ui/text_input.rs:34-36 | `_compute_max_dy` is the wrapped row of the line's last character: (promptLen + len) lies in that row's span of maxX columns |
| Geometry.CursorWithinRows | src/ui/text_input.rs:34-36 | The cursor's wrapped row is never below `_compute_max_dy`, the row of the line's last character |
| Geometry.Insert | src/ui/text_input.rs:38-50 | `char` puts c at the cursor and advances the index by one, keeps the invariant, wraps to column 1 of the next row from the right edge, and moves the prompt row up one when the line would pass the bottom row |
| Geometry.InsertKeepsRow | src/ui/text_input.rs:46-48 | While the line is shorter than the screen, inserting keeps the prompt row at least 1 and the last wrapped row on screen |
| Geometry.Left | src/ui/text_input.rs:52-63 | One character back, none at index 0; from column 1 to the right edge of the row above; only the cursor moves |
| Geometry.Right | src/ui/text_input.rs:65-76 | One character forward, none at the end; from the right edge to column 1 of the row below; only the cursor moves |
| Geometry.Beg | src/ui/text_input.rs:111-115 | Index 0, with the geometry the invariant gives: column promptLen+1 on the prompt row |
| Geometry.End | src/ui/text_input.rs:117-121 | Index at the buffer's length and dY equal to `_compute_max_dy`; the invariant holds for the division formula used |
| Geometry.UpAsWritten | src/ui/text_input.rs:78-86 | `up` as written fails exactly when the cursor is on a wrapped row but its index is below the width (usize underflow), and agrees with the corrected `up` otherwise |
| Geometry.UpUnderflowWitness | src/ui/text_input.rs:78-86 | 78 characters typed after the prompt on an 80-column terminal put the cursor at column 2 of wrapped row 1, where `up` as written underflows |
| Geometry.Up | src/ui/text_input.rs:78-86 | One row up in the same column when a full row lies above the index, otherwise `beg`; only the cursor moves |
| Geometry.Down | src/ui/text_input.rs:88-96 | One row down in the same column (index + width) while that stays inside the buffer, otherwise `end` |
| Geometry.Backspace | src/ui/text_input.rs:98-103 | Removes the character before the cursor and moves left over it; nothing at index 0 |
| Geometry.Delete | src/ui/text_input.rs:105-109 | Removes the character under the cursor; cursor and geometry stay; nothing at the end |
| Geometry.LeftN | src/ui/text_input.rs:132-134 | The word motion's loop of n `left` calls moves the index back n, stopping at 0 |
| Geometry.RightN | src/ui/text_input.rs:147-149 | The word motion's loop of n `right` calls moves the index forward n, stopping at the end |
| Geometry.WordLeftSteps | src/ui/text_input.rs:124-135 | The step count the two backward scans compute never exceeds the index |
| Geometry.WordLeft | src/ui/text_input.rs:123-139 | `word_left` moves only the cursor, never forward, to the target of its scans |
| Geometry.WordLeftTargetIsWordStart | src/ui/text_input.rs:123-139 | The scans stop at the start of the last word before the cursor (a non-whitespace character at the buffer start or after whitespace) with no word start in between; with only whitespace before the cursor they do not move |
| Geometry.WordLeftLandsOnWordStart | src/ui/text_input.rs:123-139 | `word_left` lands on the start of the last word before the cursor, or stays when there is none |
| Geometry.WordRightSteps | src/ui/text_input.rs:141-150 | The step count the two forward scans compute stays inside the buffer |
| Geometry.WordRight | src/ui/text_input.rs:141-157 | `word_right` moves only the cursor, never backward, to the target of its scans |
| Geometry.WordRightTargetIsWordStart | src/ui/text_input.rs:141-157 | The scans stop at the start of the first word after the cursor with no word start in between, or at the end when there is none |
| Geometry.WordRightLandsOnWordStart | src/ui/text_input.rs:141-157 | `word_right` lands on the start of the next word, or at the end of the buffer when no word follows |
| Geometry.ClearTerm | src/ui/text_input.rs:159-162 | ctrl+l puts the prompt on row 1 and changes nothing else |
| Geometry.InsertAll | src/ui/text_input.rs:38-40 | Inserting the characters of s in turn splices s in at the cursor and advances the index by \|s\| |
| Geometry.BackspaceUndoesInsert | src/ui/text_input.rs:98-103 | Backspace after an insert restores buffer, index, column and wrapped row |
| Geometry.TypeThenErase | src/ui/text_input.rs:98-103 | Typing s and then as many backspaces restores the state; only the prompt row may have scrolled |
| Geometry.TypeIntoEmptyLine | src/ui/text_input.rs:38-40 | N inserts into an empty line give exactly the inserted characters with index N; N backspaces then give the empty line with column promptLen+1 and dY 0 |
| Events.FromTermion | src/ui/event.rs:16-40 | ctrl and alt keys become chords on the plain character and no raw modifier key survives; other keys pass as plain keys; mouse events pass unchanged; unrecognised bytes are kept as they came |
| Events.CtrlArrowEncodingsDistinct | src/ui/event.rs:27-34 | The eight recognised sequences are pairwise distinct across arrows and encodings |
| Events.ModifiersBecomeChords | src/ui/event.rs:20-22 | ctrl+c becomes the ctrl chord on 'c', alt+c the alt chord on 'c' |
| Events.CtrlArrowTable | src/ui/event.rs:26-38 | An unrecognised sequence becomes ctrl+arrow exactly when it is that arrow's xterm or rxvt encoding, and stays unsupported exactly when it is none of the eight |
| TextInput.HandleEvent | src/ui/text_input.rs:187-239 | Enter returns the buffer as characters and as a string, and nothing else does; ctrl+c/ctrl+d and only they quit; ctrl+up/down and only they ask for history; requests leave the state alone. Each key's operation is stated: characters insert; Backspace, Delete and the four arrows call their geometry operation; Home and ctrl+a go to the start; End and ctrl+e go to the end; PageUp and ctrl+left move a word left; PageDown and ctrl+right move a word right; ctrl+l moves the prompt to row 1. Alt chords, ctrl chords other than c, d, a, e, l and the four arrows, other plain keys and non-key events change nothing; the invariant holds |
| TextInput.Data | src/ui/text_input.rs:241-243 | `data` is the live buffer; `SetData` states that it reads back what was set |
| TextInput.SetData | src/ui/text_input.rs:245-249 | The buffer becomes the given data with the cursor at its end, on the same row, invariant kept |
| TextInput.Type | src/ui/text_input.rs:187-199 | Feeding key presses keeps the invariant |
| TextInput.TypeInserts | src/ui/text_input.rs:192-198 | Typed characters other than Enter are exactly `Geometry.InsertAll` |
| TextInput.TypeThenEnter | src/ui/text_input.rs:192-195 | A line typed into an empty editor and ended by Enter is submitted exactly as typed, state untouched |
| TextInput.WordLeftToLastStart | src/ui/text_input.rs:123-139 | Word-left lands on any word start that has no other word start between it and the cursor |
| TextInput.WordLeftTargetsExample | src/ui/text_input.rs:123-139 | In "select  * from t" the word-left targets from the end are 15 ("t"), 10 ("from") and 8 ("*") |
| TextInput.WordLeftExample | src/ui/text_input.rs:227 | Three ctrl+left presses from the end of "select  * from t" stop at "t", "from" and "*" |
| Scrollback.New | src/history.rs:8-13 | An empty history, not browsing |
| Scrollback.Push | src/history.rs:37-41 | The entry becomes the newest; the list grows by one unless the newest already equals it; older entries and the cursor are kept |
| Scrollback.ResetIndex | src/history.rs:43-45 | Browsing stops and the entries stay |
| Scrollback.Prev | src/history.rs:19-26 | None with no change at the oldest entry (also on an empty list), otherwise one entry older, returning it |
| Scrollback.NextAsWritten | src/history.rs:28-35 | `next` as written panics exactly when not browsing (cursor -1), and otherwise agrees with the corrected `next` |
| Scrollback.Next | src/history.rs:28-35 | None with no change at the newest entry or when not browsing, otherwise one entry newer, returning it; the cursor stays in range |
| Scrollback.PrevThenNext | src/history.rs:19-35 | prev then next returns to the same place and shows the entry that was current |
| Scrollback.NextThenPrev | src/history.rs:19-35 | next then prev returns to the same place and shows the entry that was current |
| Scrollback.PushDuplicates | src/history.rs:37-41 | Pushing the same entry twice keeps one copy; with another entry in between both copies are kept |
| Scrollback.BrowseExample | src/history.rs:19-41 | Push "a", push "b", prev, prev, next shows "b", "a", then "b" |
| Scrollback.NoFurtherHistory | src/history.rs:19-35 | A fresh history has nothing before it, the corrected `next` reports nothing after it, and `next` as written panics there |
| Session.Submit | src/ui/event_loop.rs:76-79 | The submitted line is the newest entry, added unless it repeats the newest, and browsing stops |
| Session.TypeEnterSubmit | src/ui/event_loop.rs:76-79 | A line typed and submitted with Enter is added to the history exactly as typed |
| Session.SelectOneExample | src/ui/event_loop.rs:76-79 | "select 1;" submitted into an empty history gives exactly that one entry with browsing stopped |
| Pager.MaxLen | src/ui/text_view.rs:105-112 | The fold of `max` over the rows' byte lengths from 0; `Pager.MaxLenIsMax` states what it yields |
| Pager.MaxLenIsMax | src/ui/text_view.rs:105-112 | The fold yields the longest row's byte length: no row is longer, and some row has that length unless it is 0 |
| Pager.RowSlice | src/ui/text_view.rs:97-99 | The visible rows are the rows from y on, at most the screen's height of them |
| Pager.WindowMaxLen | src/ui/text_view.rs:105-112 | The longest visible row is no longer than the longest row overall |
| Pager.New | src/ui/text_view.rs:18-31 | Top-left corner, with the longest-row length computed over the first screenful |
| Pager.ScrollDown | src/ui/text_view.rs:53-58 | One row down only while rows remain below the window, with the longest visible row recomputed; otherwise nothing moves |
| Pager.ScrollUp | src/ui/text_view.rs:60-65 | One row up only when not at the top, with the longest visible row recomputed |
| Pager.ScrollRight | src/ui/text_view.rs:67-71 | One column right only while the longest visible row extends past the window |
| Pager.ScrollLeft | src/ui/text_view.rs:73-77 | One column left only when not at column 0 |
| Pager.HandleEvent | src/ui/text_view.rs:46-95 | The pager stops exactly on a plain key other than the four arrows, and then nothing changes; arrows scroll one step with clamping; chords and non-key events keep it running unchanged; the offsets stay within the content |
| Pager.RowBound | src/ui/text_view.rs:53-58 | The first visible row never passes the last screenful |
| Pager.PressDown | src/ui/text_view.rs:53-58 | Repeated Down presses keep the offsets within the content |
| Pager.DownStopsAtLastScreen | src/ui/text_view.rs:53-58 | From row y, n Down presses reach min(y + n, max(y, len - height)): with 100 rows on a 20-row screen the window stops at row 80, and with fewer rows than the screen's height it does not move |
| Pager.ColumnSliceAsWritten | src/ui/text_view.rs:101-103 | The as-written slice fails exactly on a row shorter than x, and otherwise equals the clamped slice |
| Pager.ColumnSlice | src/ui/text_view.rs:101-103 | The visible part of a row: at most the screen's width of bytes, namely the row's bytes from column x on, and empty for a row shorter than x |
| Pager.Visible | src/ui/text_view.rs:33-44 | What `display` draws: one entry per visible row, each no wider than the screen, each the visible part of its row |
| Pager.ColumnSlicePanicWitness | src/ui/text_view.rs:67-103 | A 20-byte row then an empty row on a 10x2 screen: one Right scrolls to column 1 with the empty row still visible, where the as-written slice fails |
| PgPass.Split | src/pgpass.rs:49 | `split(':')` yields one more piece than there are colons, none containing a colon |
| PgPass.JoinSplit | src/pgpass.rs:49 | Splitting loses nothing: the pieces joined with ':' give the line back |
| PgPass.SplitJoin | src/pgpass.rs:49 | Colon-free fields joined with ':' split back into the same fields |
| PgPass.ParseEntry | src/pgpass.rs:48-57 | None exactly when the line has fewer than four colons (five fields), otherwise the entry of the first five fields in order |
| PgPass.EntryRoundTrip | src/pgpass.rs:48-57 | An entry whose fields hold no colon is read back from its own line |
| PgPass.PasswordTruncated | src/pgpass.rs:48-57 | There is no escaping: the password is cut at its first colon and later text is dropped; it is kept whole exactly when it holds no colon |
| PgPass.Matches | src/pgpass.rs:59-64 | An all-wildcard entry matches every target; an entry without wildcards matches exactly its own host, port, database and user; any field that is neither "*" nor the target's rules the entry out |
| PgPass.WildcardActsAsTarget | src/pgpass.rs:59-64 | A "*" in host, port, database or user matches exactly as the target's own value in that field would; with the exact-match case of `Matches` this fixes the result for every mix of wildcards and literals |
| PgPass.WildcardDatabaseExample | src/pgpass.rs:59-64 | `localhost:5432:*:me:pw` matches any database on localhost:5432 for user me, and not port 5433 |
| PgPass.MatchIgnoresPassword | src/pgpass.rs:59-64 | The password takes no part in matching |
| PgPass.IsSafeModeAsWritten | src/pgpass.rs:19 | The numeric comparison with 0o600, in octal digits: it passes any owner digit below 6 whatever group and others get, and owner digit 6 only with nothing for them |
| PgPass.IsSafeMode | src/pgpass.rs:19 | The corrected check: owner digit at most 6, and group and other digits 0 |
| PgPass.ModeCompareIsNotBitmask | src/pgpass.rs:19-23 | The as-written check passes 0o600 and 0o400 and rejects 0o644, but also passes 0o477, which gives group and others every right |
| PgPass.SafeModeProperties | src/pgpass.rs:19-23 | The corrected check passes no mode with group or other bits, implies the as-written check, and agrees with it on every mode without such bits |
| PgPass.OpenIfSafe | src/pgpass.rs:12-36 | The file's lines are available exactly when it opened, its metadata was readable and its mode passes the check |
| PgPass.Uncommented | src/pgpass.rs:69-72 | The filtered lines are no more than the file's lines and none of them starts with '#' |
| PgPass.UncommentedAppend | src/pgpass.rs:69-72 | Filtering a concatenation concatenates the filtered parts, so kept lines keep their order and their number of copies |
| PgPass.UncommentedNoComments | src/pgpass.rs:69-72 | A file without comment lines passes the filter unchanged |
| PgPass.UncommentedKeepsTheRest | src/pgpass.rs:69-72 | A line survives the filter exactly when it is in the file and does not start with '#' |
| PgPass.Outcome | src/pgpass.rs:74-86 | A line is parsed exactly when it has at least five fields (four colons), and the entry is its first five `:`-separated fields in order; otherwise it is reported as ignored, with the line |
| PgPass.ParseFile | src/pgpass.rs:67-89 | Every uncommented line is parsed or ignored in order, and the result is None |
| PgPass.Parse | src/pgpass.rs:5-10 | `parse` returns None whatever the file holds |
| PgPass.CommentsChangeNothing | src/pgpass.rs:69-72 | Adding a comment line anywhere changes neither the filtered lines nor the report |
| LegacyUi.New | src/ui.rs:19-31 | An empty line with the cursor after the prompt on row 1 |
| LegacyUi.Reset | src/ui.rs:33-38 | Empty buffer, index 0, dY 0 and column promptLen+1, with the prompt row kept |
| LegacyUi.TypeChar | src/ui.rs:44-65 | Enter leaves buffer, index, column and wrapped row alone and moves the prompt row below the line, never past the last row; any other character is `Geometry.Insert` |
| LegacyUi.NewlineRow | src/ui.rs:45-47 | Enter puts the prompt row just below the line's last wrapped row when that fits, otherwise on the last screen row |
| LegacyUi.DisplayVecOnNewLine | src/ui.rs:147-159 | Column 1, and the row advances by the number of strings, saturating at the last row; nothing else changes |
| LegacyUi.DisplayStringOnNewLine | src/ui.rs:161-171 | Showing one string moves the cursor exactly as showing a list of that one string does |
| LegacyUi.DisplayComposes | src/ui.rs:147-159 | Showing two lists in turn is showing their concatenation |
| LegacyUi.FirstStop | src/ui.rs:182-199 | The position of the first Enter, ctrl+c or ctrl+d key, with none before it |
| LegacyUi.HandleKey | src/ui.rs:183-210 | A key ends the loop exactly when it is Enter, ctrl+c or ctrl+d; only Enter returns a line, namely the buffer, after moving the prompt row below it. Each key's operation is stated: characters insert; Backspace, Delete and the four arrows call their geometry operation; Home and ctrl+a go to the start; End and ctrl+e go to the end; every other key changes nothing |
| LegacyUi.Run | src/ui.rs:182-220 | The key loop keeps the invariant and any returned line is the buffer |
| LegacyUi.RunStopsAtFirstStop | src/ui.rs:182-220 | The loop returns a line exactly when the first key that ends it is Enter |
| LegacyUi.GetInput | src/ui.rs:173-221 | After the reset, a line is returned exactly when Enter comes before ctrl+c, ctrl+d and the end of input |
| LegacyUi.TypeLineThenEnter | src/ui.rs:173-221 | A line typed and ended by Enter is returned exactly as typed; ctrl+c or ctrl+d first returns None |

## Left out

- Drawing is left out. This covers `print!`, cursor `Goto`, `clear`, `flush`, the alternate screen, `TextView::display`'s writes and `_display_buffer`. `Pager.Visible` keeps what would be drawn.
- The terminal size, the cursor's starting row and stdin are parameters or input sequences. They are not queried.
- Geometry.Insert: the prompt row `y` is an unbounded integer, so the u16 underflow of `y -= 1` on row 0 is not modelled (`Geometry.InsertKeepsRow` gives the condition under which `y` stays on screen). The same applies to the u16 wrap of `y +=` in src/ui.rs, and of the pager's `usize` offsets. Under `Geometry.Valid` the column `x` stays within `maxX`. The wrapped-row count `dY` and `_compute_max_dy` are u16 in the source (src/ui/text_input.rs:35 truncates with `as u16`, `d_y += 1` at src/ui/text_input.rs:44 can overflow, and so can `self.y + self._compute_max_dy()` at src/ui/text_input.rs:46). They wrap for a line of 65536 or more wrapped rows; the model keeps them unbounded and does not model that wrap.
- Pager.ColumnSlice: rows are byte strings. `str::get` in src/ui/text_view.rs:102 also returns None when a bound falls inside a multi-byte UTF-8 character, and that case of the panic is not modelled.
- Pager.HandleEvent: Right bounds `x` by the longest row visible at the time of the move, and a vertical move does not re-clamp `x` when the longest visible row gets shorter, as in the code. So the invariant bounds `x` only by the longest row overall; no bound by the rows now visible holds.
- Pager.Visible: built on the corrected `Pager.ColumnSlice`, it shows an empty part for a visible row shorter than `x`, where the source's `display` (src/ui/text_view.rs:33-44, called from `handle_event` at src/ui/text_view.rs:90-92) panics in `_get_column_slice`. `Pager.ColumnSliceAsWritten` keeps the failing version.
- src/ui/event_loop.rs is modelled only as the submit step (`Session.Submit`). It calls `History::push_and_save`, which src/history.rs does not define, so the model uses `push`; persistence exists nowhere in the code. Its HistoryPrev/HistoryNext handlers are commented out, and its `TextInput::new(PROMPT)` and `handle_event(_, stdout)` calls do not match src/ui/text_input.rs.
- `History::current_command` is a plain field read.
- The following parts of src/pgpass.rs are left out:
  - the file open, the metadata call, the hard-coded default path (src/pgpass.rs:6), `println!`/`eprintln!` and line reading;
  - the panic in the comment filter's `unwrap` on a read error.

  `PgPass.FileProbe` stands for what opening yields.
- The older editor's `get_input` unwraps key-read errors; a read error is not modelled. The end of input returns None.
- src/profile.rs is not part of this model (stdin prompts, files, JSON). Its index check at src/profile.rs:67 admits `i == len + 1`, which indexes past the end at src/profile.rs:71.
- src/sql.rs, src/parse_args.rs, src/connection_options.rs and src/main.rs are not part of this model. They are a database client wrapper, table formatting, argument parsing and format templates.
- TextInput.HandleEvent and LegacyUi.HandleKey use the corrected `Geometry.Up`. Scrollback.Next is the corrected `next`. Pager.Visible uses the corrected `Pager.ColumnSlice`. PgPass.OpenIfSafe uses the corrected `PgPass.IsSafeMode`. The as-written versions are kept beside them (see Findings).

## Findings

| source | as written | input that shows it | evidently intended | confidence | as-written member | corrected member |
|---|---|---|---|---|---|---|
| src/ui/text_input.rs:78-86 | `up` subtracts the width from the index whenever the cursor is on a wrapped row (`d_y > 0`), although an index below the width can be on wrapped row 1 under the prompt; the usize subtraction underflows (the same code is in src/ui.rs:93-101) | 78 characters typed after "$> " on an 80-column terminal (cursor at column 2, row 1, index 78), then Up | move up a row when a full row lies above the index, otherwise go to the start as `beg` does | not executed; high | Geometry.UpAsWritten, Geometry.UpUnderflowWitness | Geometry.Up |
| src/history.rs:28-35 | `next` at cursor -1 decrements to -2, casts it to usize and unwraps a missing entry | `History::new()` then `next()` | report "no further history": the commented-out caller at src/ui/event_loop.rs:61-71 calls `next` only when `current_command() > -1` and otherwise restores the live draft | not executed; high | Scrollback.NextAsWritten, Scrollback.NoFurtherHistory | Scrollback.Next |
| src/ui/text_view.rs:101-103 | `_get_column_slice` unwraps `get(x..min(x+width, len))`, which is None for a visible row shorter than x; Right lets x grow while the longest visible row is wider than the screen, whatever the other visible rows' lengths | rows: 20 bytes, then an empty row, on a 10x2 screen; Right | show the row's remaining (empty) part | not executed; high | Pager.ColumnSliceAsWritten, Pager.ColumnSlicePanicWitness | Pager.ColumnSlice |
| src/pgpass.rs:19 | the permission bits are compared with 0o600 as a number | mode 0o477 (group and others read, write, execute) passes | refuse a file that group or others can access, as the password-file convention requires | not executed; medium | PgPass.IsSafeModeAsWritten, PgPass.ModeCompareIsNotBitmask | PgPass.IsSafeMode, PgPass.SafeModeProperties |

=== FILE: chars.dfy ===
/** Character classes and the iterator helpers the word motions are built from. */
module Chars {
  import opened Options

  /** Rust's `char::is_whitespace`: the characters with the Unicode White_Space property. */
  predicate IsWhitespace(c: char) {
    var n := c as int;
    || (9 <= n <= 13)
    || n == 0x20
    || n == 0x85
    || n == 0xA0
    || n == 0x1680
    || (0x2000 <= n <= 0x200A)
    || n == 0x2028
    || n == 0x2029
    || n == 0x202F
    || n == 0x205F
    || n == 0x3000
  }

  /** `iter().rev()`: the characters of `s` in reverse order. */
  function Reverse(s: seq<char>): (r: seq<char>)
    ensures |r| == |s|
    ensures forall i :: 0 <= i < |s| ==> r[i] == s[|s| - 1 - i]
  {
    if |s| == 0 then [] else Reverse(s[1..]) + [s[0]]
  }

  /** `position(|&c| c.is_whitespace() == ws)`: the index of the first character
      whose whitespace-ness is `ws`, or None when there is no such character. */
  function Position(s: seq<char>, ws: bool): (r: Option<nat>)
    ensures r.Some? ==> r.value < |s| && IsWhitespace(s[r.value]) == ws
    ensures r.Some? ==> forall k :: 0 <= k < r.value ==> IsWhitespace(s[k]) != ws
    ensures r.None? ==> forall k :: 0 <= k < |s| ==> IsWhitespace(s[k]) != ws
  {
    if |s| == 0 then None
    else if IsWhitespace(s[0]) == ws then Some(0)
    else match Position(s[1..], ws)
      case None => None
      case Some(p) => Some(p + 1)
  }
}

=== FILE: events.dfy ===
/** Terminal input events (src/ui/event.rs): termion's raw events and their
    normalisation into the key events the editor and the pager consume. */
module Events {

  newtype byte = b: int | 0 <= b < 256

  /** termion's `Key`. */
  datatype Key =
    | Backspace | Left | Right | Up | Down | Home | End | PageUp | PageDown
    | BackTab | Delete | Insert | F(n: int) | Char(c: char) | Alt(c: char) | Ctrl(c: char)
    | Null | Esc

  datatype MouseButton = LeftButton | RightButton | MiddleButton | WheelUp | WheelDown

  /** termion's `MouseEvent`, passed through untouched. */
  datatype MouseEvent =
    | Press(button: MouseButton, col: int, row: int)
    | Release(col: int, row: int)
    | Hold(col: int, row: int)

  /** termion's `Event`: what the terminal delivers. */
  datatype RawEvent = RawKey(key: Key) | RawMouse(mouse: MouseEvent) | RawUnsupported(bytes: seq<byte>)

  /** A key with the modifier held, if any. */
  datatype KeyEvent = Plain(key: Key) | CtrlChord(key: Key) | AltChord(key: Key)

  /** `TrueEvent`: the normalised event. */
  datatype TrueEvent = KeyInput(ke: KeyEvent) | MouseInput(mouse: MouseEvent) | Unsupported(bytes: seq<byte>)

  datatype Arrow = ArrowUp | ArrowDown | ArrowRight | ArrowLeft

  function ArrowKey(a: Arrow): Key {
    match a
    case ArrowUp => Up
    case ArrowDown => Down
    case ArrowRight => Right
    case ArrowLeft => Left
  }

  /** The final byte of the cursor-key escape for an arrow: 'A' up, 'B' down, 'C' right, 'D' left. */
  function ArrowFinal(a: Arrow): byte {
    match a
    case ArrowUp => 65
    case ArrowDown => 66
    case ArrowRight => 67
    case ArrowLeft => 68
  }

  /** ctrl+arrow as xterm sends it: ESC [ 1 ; 5 followed by the final byte. */
  function XtermCtrlArrow(a: Arrow): seq<byte> {
    [27, 91, 49, 59, 53, ArrowFinal(a)]
  }

  /** ctrl+arrow as rxvt sends it: ESC O followed by the final byte in lower case. */
  function RxvtCtrlArrow(a: Arrow): seq<byte> {
    [27, 79, ArrowFinal(a) + 32]
  }

  /** `TrueEvent::from_termion_event`. */
  function FromTermion(e: RawEvent): (r: TrueEvent)
    ensures r.KeyInput? ==> !r.ke.key.Ctrl? && !r.ke.key.Alt?
    ensures e.RawMouse? <==> r.MouseInput?
    ensures e.RawMouse? ==> r.mouse == e.mouse
    ensures r.Unsupported? ==> e == RawUnsupported(r.bytes)
    ensures e.RawKey? && !e.key.Ctrl? && !e.key.Alt? ==> r == KeyInput(Plain(e.key))
  {
    match e
    case RawKey(k) =>
      (match k
       case Ctrl(c) => KeyInput(CtrlChord(Char(c)))
       case Alt(c) => KeyInput(AltChord(Char(c)))
       case _ => KeyInput(Plain(k)))
    case RawMouse(m) => MouseInput(m)
    case RawUnsupported(v) =>
      if v == [27, 91, 49, 59, 53, 67] || v == [27, 79, 99] then KeyInput(CtrlChord(Right))
      else if v == [27, 91, 49, 59, 53, 68] || v == [27, 79, 100] then KeyInput(CtrlChord(Left))
      else if v == [27, 91, 49, 59, 53, 65] || v == [27, 79, 97] then KeyInput(CtrlChord(Up))
      else if v == [27, 91, 49, 59, 53, 66] || v == [27, 79, 98] then KeyInput(CtrlChord(Down))
      else Unsupported(v)
  }

  /** The eight escape sequences are pairwise distinct across arrows, so each names one arrow. */
  lemma CtrlArrowEncodingsDistinct(a: Arrow, b: Arrow)
    requires a != b
    ensures XtermCtrlArrow(a) != XtermCtrlArrow(b) && RxvtCtrlArrow(a) != RxvtCtrlArrow(b)
    ensures XtermCtrlArrow(a) != RxvtCtrlArrow(b)
  {
    assert XtermCtrlArrow(a)[5] != XtermCtrlArrow(b)[5];
    assert RxvtCtrlArrow(a)[2] != RxvtCtrlArrow(b)[2];
    assert |XtermCtrlArrow(a)| != |RxvtCtrlArrow(b)|;
  }

  /** Modifier keys become chords on the plain character. */
  lemma ModifiersBecomeChords(c: char)
    ensures FromTermion(RawKey(Ctrl(c))) == KeyInput(CtrlChord(Char(c)))
    ensures FromTermion(RawKey(Alt(c))) == KeyInput(AltChord(Char(c)))
  {
  }

  /** An unrecognised byte sequence is normalised to ctrl+arrow exactly when it
      is one of that arrow's two encodings, and is passed on unchanged otherwise. */
  lemma CtrlArrowTable(v: seq<byte>, a: Arrow)
    ensures FromTermion(RawUnsupported(v)) == KeyInput(CtrlChord(ArrowKey(a))) <==>
            v == XtermCtrlArrow(a) || v == RxvtCtrlArrow(a)
    ensures FromTermion(RawUnsupported(v)) == Unsupported(v) <==>
            forall b: Arrow :: v != XtermCtrlArrow(b) && v != RxvtCtrlArrow(b)
  {
    if forall b: Arrow :: v != XtermCtrlArrow(b) && v != RxvtCtrlArrow(b) {
      assert v != XtermCtrlArrow(ArrowUp) && v != RxvtCtrlArrow(ArrowUp);
      assert v != XtermCtrlArrow(ArrowDown) && v != RxvtCtrlArrow(ArrowDown);
      assert v != XtermCtrlArrow(ArrowRight) && v != RxvtCtrlArrow(ArrowRight);
      assert v != XtermCtrlArrow(ArrowLeft) && v != RxvtCtrlArrow(ArrowLeft);
    } else {
      var b: Arrow :| v == XtermCtrlArrow(b) || v == RxvtCtrlArrow(b);
      match b {
        case ArrowUp =>
        case ArrowDown =>
        case ArrowRight =>
        case ArrowLeft =>
      }
    }
  }
}

=== FILE: geometry.dfy ===
/** The cursor geometry of the line editor (`TermPos` in src/ui/text_input.rs):
    a character buffer, a cursor index into it, and the screen position of the
    cursor under soft wrapping. Terminal size and the starting row are plain
    parameters; nothing is printed. */
module Geometry {
  import opened Options
  import opened Chars

  /** The prompt printed in front of the buffer; only its length matters here. */
  const Prompt: string := "$> "

  datatype TermPos = TermPos(
    x: int,           // screen column of the cursor, 1-based
    y: int,           // screen row of the prompt, 1-based
    buffer: seq<char>,
    index: int,       // cursor position in the buffer, 0..|buffer|
    dY: int,          // wrapped rows between the prompt row and the cursor row
    maxX: int,        // terminal width
    maxY: int,        // terminal height
    promptLen: int)

  /** The class invariant: the cursor column and wrapped row are exactly where
      the cursor index puts them once the prompt has taken its columns. */
  predicate Valid(tp: TermPos) {
    && tp.maxX >= 1
    && 0 <= tp.promptLen < tp.maxX
    && 0 <= tp.index <= |tp.buffer|
    && 1 <= tp.x <= tp.maxX
    && 0 <= tp.dY
    && tp.x + tp.dY * tp.maxX == tp.promptLen + tp.index + 1
  }

  /** Terminal size and prompt are fixed for the whole session. */
  predicate SameFrame(a: TermPos, b: TermPos) {
    a.maxX == b.maxX && a.maxY == b.maxY && a.promptLen == b.promptLen
  }

  /** Only the cursor moved: same text, same prompt row, same frame. */
  predicate CursorOnly(a: TermPos, b: TermPos) {
    a.buffer == b.buffer && a.y == b.y && SameFrame(a, b)
  }

  /** A word starts at `j`: a non-whitespace character at the buffer start or after whitespace. */
  predicate WordStart(s: seq<char>, j: int) {
    0 <= j < |s| && !IsWhitespace(s[j]) && (j == 0 || IsWhitespace(s[j - 1]))
  }

  /** `TermPos::new` with the terminal size and the cursor row passed in. */
  function New(maxX: int, maxY: int, row: int): (r: TermPos)
    ensures maxX > |Prompt| ==> Valid(r)
    ensures r.buffer == [] && r.index == 0 && r.y == row
    ensures r.maxX == maxX && r.maxY == maxY && r.promptLen == |Prompt|
  {
    TermPos(|Prompt| + 1, row, [], 0, 0, maxX, maxY, |Prompt|)
  }

  /** `_compute_max_dy`: the wrapped row holding the last character of prompt and buffer. */
  function MaxDy(tp: TermPos): (r: int)
    requires tp.maxX >= 1
    ensures r * tp.maxX <= tp.promptLen + |tp.buffer| < (r + 1) * tp.maxX
  {
    (tp.promptLen + |tp.buffer|) / tp.maxX
  }

  /** q and r are the quotient and remainder of n by w whenever they satisfy the division identity. */
  lemma DivModUnique(n: int, w: int, q: int, r: int)
    requires w >= 1 && 0 <= r < w && q * w + r == n
    ensures q == n / w && r == n % w
  {
    var q', r' := n / w, n % w;
    if q > q' {
      MulAtLeast(q - q', w);
      Distribute(q - q', q', w);
    } else if q < q' {
      MulAtLeast(q' - q, w);
      Distribute(q' - q, q, w);
    }
  }

  lemma MulAtLeast(a: int, w: int)
    requires a >= 1 && w >= 1
    ensures a * w >= w
  {
  }

  lemma Distribute(a: int, b: int, w: int)
    ensures (a + b) * w == a * w + b * w
  {
  }

  /** A valid position is fully determined by its index: the column and the
      wrapped row are the remainder and quotient of prompt length plus index. */
  lemma Canonical(tp: TermPos)
    requires Valid(tp)
    ensures tp.x == (tp.promptLen + tp.index) % tp.maxX + 1
    ensures tp.dY == (tp.promptLen + tp.index) / tp.maxX
  {
    DivModUnique(tp.promptLen + tp.index, tp.maxX, tp.dY, tp.x - 1);
  }

  /** Two valid positions over the same line and index are the same position. */
  lemma {:induction false} SameIndexSamePos(a: TermPos, b: TermPos)
    requires Valid(a) && Valid(b) && CursorOnly(a, b) && a.index == b.index
    ensures a == b
  {
    Canonical(a);
    Canonical(b);
  }

  /** The cursor never sits below the last wrapped row of the line. */
  lemma CursorWithinRows(tp: TermPos)
    requires Valid(tp)
    ensures 0 <= tp.dY <= MaxDy(tp)
  {
    Canonical(tp);
    DivMonotone(tp.promptLen + tp.index, tp.promptLen + |tp.buffer|, tp.maxX);
  }

  lemma DivMonotone(a: int, b: int, w: int)
    requires 0 <= a <= b && w >= 1
    ensures a / w <= b / w
  {
    var qa, qb := a / w, b / w;
    if qa > qb {
      MulAtLeast(qa - qb, w);
      Distribute(qa - qb, qb, w);
    }
  }

  /** `char`: insert `c` at the cursor, advance the cursor, wrap to column 1 of
      the next row past the right edge, and scroll the prompt row up by one when
      the line would run off the bottom of the screen. */
  function Insert(tp: TermPos, c: char): (r: TermPos)
    requires Valid(tp)
    ensures Valid(r) && SameFrame(r, tp)
    ensures r.buffer == tp.buffer[..tp.index] + [c] + tp.buffer[tp.index..]
    ensures r.index == tp.index + 1
    ensures tp.x == tp.maxX ==> r.x == 1 && r.dY == tp.dY + 1
    ensures r.y == (if tp.y + MaxDy(r) > tp.maxY then tp.y - 1 else tp.y)
  {
    var grown := tp.(buffer := tp.buffer[..tp.index] + [c] + tp.buffer[tp.index..],
                     index := tp.index + 1, x := tp.x + 1);
    var wrapped := if grown.x > grown.maxX then grown.(x := 1, dY := grown.dY + 1) else grown;
    assert wrapped.dY * wrapped.maxX == if grown.x > grown.maxX then tp.dY * tp.maxX + tp.maxX else tp.dY * tp.maxX;
    if wrapped.y + MaxDy(wrapped) > wrapped.maxY then wrapped.(y := wrapped.y - 1) else wrapped
  }

  /** While the line occupies fewer rows than the screen has, inserting keeps
      the whole line on screen: the prompt row stays at least 1 and the last
      wrapped row at most the screen height. */
  lemma InsertKeepsRow(tp: TermPos, c: char)
    requires Valid(tp) && 1 <= tp.y && tp.y + MaxDy(tp) <= tp.maxY
    requires MaxDy(Insert(tp, c)) < tp.maxY
    ensures var r := Insert(tp, c); 1 <= r.y && r.y + MaxDy(r) <= r.maxY
  {
    var r := Insert(tp, c);
    DivMonotone(tp.promptLen + |tp.buffer|, tp.promptLen + |r.buffer|, tp.maxX);
    DivStep(tp.promptLen + |tp.buffer|, tp.maxX);
  }

  lemma DivStep(n: int, w: int)
    requires n >= 0 && w >= 1
    ensures (n + 1) / w <= n / w + 1
  {
    DivModUnique(n, w, n / w, n % w);
    if n % w + 1 < w {
      DivModUnique(n + 1, w, n / w, n % w + 1);
    } else {
      DivModUnique(n + 1, w, n / w + 1, 0);
    }
  }

  /** `left`: one character back, from column 1 to the right edge of the row above. */
  function Left(tp: TermPos): (r: TermPos)
    requires Valid(tp)
    ensures Valid(r) && CursorOnly(r, tp)
    ensures r.index == if tp.index > 0 then tp.index - 1 else tp.index
    ensures tp.index > 0 && tp.x == 1 ==> r.x == tp.maxX && r.dY == tp.dY - 1
  {
    if tp.index > 0 then
      if tp.x == 1 then
        assert tp.dY * tp.maxX == (tp.dY - 1) * tp.maxX + tp.maxX;
        tp.(index := tp.index - 1, x := tp.maxX, dY := tp.dY - 1)
      else
        tp.(index := tp.index - 1, x := tp.x - 1)
    else tp
  }

  /** `right`: one character forward, from the right edge to column 1 of the row below. */
  function Right(tp: TermPos): (r: TermPos)
    requires Valid(tp)
    ensures Valid(r) && CursorOnly(r, tp)
    ensures r.index == if tp.index < |tp.buffer| then tp.index + 1 else tp.index
    ensures tp.index < |tp.buffer| && tp.x == tp.maxX ==> r.x == 1 && r.dY == tp.dY + 1
  {
    if tp.index < |tp.buffer| then
      if tp.x == tp.maxX then
        assert (tp.dY + 1) * tp.maxX == tp.dY * tp.maxX + tp.maxX;
        tp.(index := tp.index + 1, x := 1, dY := tp.dY + 1)
      else
        tp.(index := tp.index + 1, x := tp.x + 1)
    else tp
  }

  /** `beg`: the first character of the buffer, right after the prompt. */
  function Beg(tp: TermPos): (r: TermPos)
    requires Valid(tp)
    ensures Valid(r) && CursorOnly(r, tp)
    ensures r.index == 0
  {
    tp.(index := 0, x := tp.promptLen + 1, dY := 0)
  }

  /** `end`: past the last character, the geometry computed directly by division. */
  function End(tp: TermPos): (r: TermPos)
    requires Valid(tp)
    ensures Valid(r) && CursorOnly(r, tp)
    ensures r.index == |tp.buffer|
    ensures r.dY == MaxDy(tp)
  {
    var n := tp.promptLen + |tp.buffer|;
    tp.(index := |tp.buffer|, x := n % tp.maxX + 1, dY := n / tp.maxX)
  }

  /** `up` as written: when the cursor is on a wrapped row it subtracts the
      terminal width from the index as an unchecked `usize`, which underflows
      (None here) when the cursor sits in the first prompt-width columns of
      wrapped row 1. */
  function UpAsWritten(tp: TermPos): (r: Option<TermPos>)
    requires Valid(tp)
    ensures r.None? <==> tp.dY > 0 && tp.index < tp.maxX
    ensures r.Some? ==> r.value == Up(tp)
  {
    if tp.dY > 0 then
      if tp.index >= tp.maxX then Some(tp.(index := tp.index - tp.maxX, dY := tp.dY - 1))
      else None
    else Some(Beg(tp))
  }

  /** `up`, guarded on the index rather than the wrapped row: one screen row up
      in the same column when there is a full row above, otherwise `beg`. */
  function Up(tp: TermPos): (r: TermPos)
    requires Valid(tp)
    ensures Valid(r) && CursorOnly(r, tp)
    ensures r.index == if tp.index >= tp.maxX then tp.index - tp.maxX else 0
    ensures tp.index >= tp.maxX ==> r.x == tp.x && r.dY == tp.dY - 1
  {
    if tp.index >= tp.maxX then
      assert tp.dY * tp.maxX == (tp.dY - 1) * tp.maxX + tp.maxX;
      tp.(index := tp.index - tp.maxX, dY := tp.dY - 1)
    else Beg(tp)
  }

  /** Typing 78 characters after the 3-column prompt on an 80-column terminal
      puts the cursor in column 2 of wrapped row 1, where `up` underflows. */
  lemma {:induction false} UpUnderflowWitness(s: seq<char>)
    requires |s| == 78
    ensures var tp := InsertAll(New(80, 24, 1), s);
            Valid(tp) && tp.index == 78 && tp.x == 2 && tp.dY == 1 && UpAsWritten(tp).None?
  {
    var tp := InsertAll(New(80, 24, 1), s);
    Canonical(tp);
  }

  /** `down`: one screen row down in the same column while that stays inside the buffer, otherwise `end`. */
  function Down(tp: TermPos): (r: TermPos)
    requires Valid(tp)
    ensures Valid(r) && CursorOnly(r, tp)
    ensures r.index == if tp.index + tp.maxX < |tp.buffer| then tp.index + tp.maxX else |tp.buffer|
    ensures tp.index + tp.maxX < |tp.buffer| ==> r.x == tp.x && r.dY == tp.dY + 1
  {
    if tp.index + tp.maxX < |tp.buffer| then
      assert (tp.dY + 1) * tp.maxX == tp.dY * tp.maxX + tp.maxX;
      tp.(index := tp.index + tp.maxX, dY := tp.dY + 1)
    else End(tp)
  }

  /** `backspace`: remove the character before the cursor and move left over it. */
  function Backspace(tp: TermPos): (r: TermPos)
    requires Valid(tp)
    ensures Valid(r) && SameFrame(r, tp) && r.y == tp.y
    ensures tp.index > 0 ==> r.buffer == tp.buffer[..tp.index - 1] + tp.buffer[tp.index..] && r.index == tp.index - 1
    ensures tp.index == 0 ==> r == tp
  {
    // `left` reads only the index, so moving before removing gives the same state
    if tp.index > 0 then Left(tp).(buffer := tp.buffer[..tp.index - 1] + tp.buffer[tp.index..]) else tp
  }

  /** `delete`: remove the character under the cursor; cursor and geometry stay. */
  function Delete(tp: TermPos): (r: TermPos)
    requires Valid(tp)
    ensures Valid(r) && SameFrame(r, tp) && r.y == tp.y
    ensures r.index == tp.index && r.x == tp.x && r.dY == tp.dY
    ensures tp.index < |tp.buffer| ==> r.buffer == tp.buffer[..tp.index] + tp.buffer[tp.index + 1..]
    ensures tp.index == |tp.buffer| ==> r.buffer == tp.buffer
  {
    if tp.index < |tp.buffer| then tp.(buffer := tp.buffer[..tp.index] + tp.buffer[tp.index + 1..]) else tp
  }

  /** `left` applied `n` times, as the word motion's loop does. */
  function LeftN(tp: TermPos, n: nat): (r: TermPos)
    decreases n
    requires Valid(tp)
    ensures Valid(r) && CursorOnly(r, tp)
    ensures r.index == if tp.index >= n then tp.index - n else 0
  {
    if n == 0 then tp else LeftN(Left(tp), n - 1)
  }

  /** `right` applied `n` times, as the word motion's loop does. */
  function RightN(tp: TermPos, n: nat): (r: TermPos)
    decreases n
    requires Valid(tp)
    ensures Valid(r) && CursorOnly(r, tp)
    ensures r.index == if tp.index + n <= |tp.buffer| then tp.index + n else |tp.buffer|
  {
    if n == 0 then tp else RightN(Right(tp), n - 1)
  }

  /** The two backward scans of `word_left` over the reversed buffer: skip the
      whitespace before the cursor, then the word before it. Some(n) steps
      left, or None when no whitespace precedes that word (`beg`). */
  function WordLeftSteps(buf: seq<char>, index: int): (n: Option<nat>)
    requires 0 <= index <= |buf|
    ensures n.Some? ==> n.value <= index
  {
    var revIndex := |buf| - index;
    var rev := Reverse(buf);
    var first := Position(rev[revIndex..], false);
    var skipped := if first.Some? then first.value + revIndex else revIndex;
    match Position(rev[skipped..], true)
    case Some(p) => Some(p + skipped - revIndex)
    case None => None
  }

  /** `word_left`: step left over the whitespace and the word before the cursor. */
  function WordLeft(tp: TermPos): (r: TermPos)
    requires Valid(tp)
    ensures Valid(r) && CursorOnly(r, tp)
    ensures r.index == WordLeftTarget(tp.buffer, tp.index) <= tp.index
  {
    match WordLeftSteps(tp.buffer, tp.index)
    case Some(n) => LeftN(tp, n)
    case None => Beg(tp)
  }

  /** The index `word_left` lands on, as the scans determine it. */
  function WordLeftTarget(buf: seq<char>, index: int): int
    requires 0 <= index <= |buf|
  {
    match WordLeftSteps(buf, index)
    case Some(n) => index - n
    case None => 0
  }

  /** A word of non-whitespace characters from m+1 to k, with only whitespace
      after it up to `idx` and whitespace (or the buffer start) before it, is
      the last word starting before `idx`. */
  lemma {:induction false} LastWordBefore(buf: seq<char>, idx: int, m: int, k: int)
    requires -1 <= m < k < idx <= |buf|
    requires m >= 0 ==> IsWhitespace(buf[m])
    requires forall j :: m < j <= k ==> !IsWhitespace(buf[j])
    requires forall j :: k < j < idx ==> IsWhitespace(buf[j])
    ensures WordStart(buf, m + 1)
    ensures forall j :: m + 1 < j < idx ==> !WordStart(buf, j)
  {
    forall j | m + 1 < j < idx
      ensures !WordStart(buf, j)
    {
      if j <= k {
        assert !IsWhitespace(buf[j - 1]);
      } else {
        assert IsWhitespace(buf[j]);
      }
    }
  }

  /** The characters of the reversed buffer from `from` on are those of
      buf[..|buf| - from], last one first. */
  lemma ReversedPrefix(buf: seq<char>, from: int)
    requires 0 <= from <= |buf|
    ensures |Reverse(buf)[from..]| == |buf| - from
    ensures forall i :: 0 <= i < |buf| - from ==> Reverse(buf)[from..][i] == buf[|buf| - from - 1 - i]
  {
  }

  /** The scans of `word_left` find the start of the last word before the
      cursor, and leave the cursor where it is when no word starts before it. */
  lemma {:induction false} WordLeftTargetIsWordStart(buf: seq<char>, idx: int)
    requires 0 <= idx <= |buf|
    ensures var j := WordLeftTarget(buf, idx);
            (exists i :: 0 <= i < idx && WordStart(buf, i)) ==>
              j < idx && WordStart(buf, j) && forall i :: j < i < idx ==> !WordStart(buf, i)
    ensures (forall i :: 0 <= i < idx ==> !WordStart(buf, i)) ==> WordLeftTarget(buf, idx) == idx
  {
    if Position(Reverse(buf)[|buf| - idx..], false).Some? {
      WordLeftPastWord(buf, idx);
    } else {
      WordLeftOverWhitespace(buf, idx);
    }
  }

  /** When a non-whitespace character precedes the cursor, the scans stop at
      the start of its word. */
  lemma {:induction false} WordLeftPastWord(buf: seq<char>, idx: int)
    requires 0 <= idx <= |buf|
    requires Position(Reverse(buf)[|buf| - idx..], false).Some?
    ensures var j := WordLeftTarget(buf, idx);
            j < idx && WordStart(buf, j) && forall i :: j < i < idx ==> !WordStart(buf, i)
  {
    var revIndex := |buf| - idx;
    var before := Reverse(buf)[revIndex..];
    ReversedPrefix(buf, revIndex);
    var p1 := Position(before, false).value;
    var k := idx - 1 - p1;
    assert !IsWhitespace(buf[k]) by {
      assert before[p1] == buf[k];
    }
    forall j | k < j < idx ensures IsWhitespace(buf[j]) {
      assert before[idx - 1 - j] == buf[j];
    }
    var m := WordLeftSecondScan(buf, idx, p1);
    WordLeftTargetAfterScans(buf, idx, p1, m);
    LastWordBefore(buf, idx, m, k);
  }

  /** The two scans combined: the target is one past the whitespace the
      second scan found, or the buffer start when it found none. */
  lemma {:induction false} WordLeftTargetAfterScans(buf: seq<char>, idx: int, p1: nat, m: int)
    requires 0 <= p1 < idx <= |buf| && -1 <= m < idx - 1 - p1
    requires Position(Reverse(buf)[|buf| - idx..], false) == Some(p1)
    requires var second := Position(Reverse(buf)[p1 + |buf| - idx..], true);
             (second.Some? <==> m >= 0) && (second.Some? ==> second.value == idx - 1 - p1 - m)
    ensures WordLeftTarget(buf, idx) == m + 1
  {
  }

  /** When only whitespace precedes the cursor, no word starts before it and
      the scans do not move. */
  lemma {:induction false} WordLeftOverWhitespace(buf: seq<char>, idx: int)
    requires 0 <= idx <= |buf|
    requires Position(Reverse(buf)[|buf| - idx..], false).None?
    ensures forall i :: 0 <= i < idx ==> !WordStart(buf, i)
    ensures WordLeftTarget(buf, idx) == idx
  {
    var revIndex := |buf| - idx;
    var before := Reverse(buf)[revIndex..];
    ReversedPrefix(buf, revIndex);
    forall j | 0 <= j < idx ensures IsWhitespace(buf[j]) {
      assert before[idx - 1 - j] == buf[j];
    }
    forall i | 0 <= i < idx ensures !WordStart(buf, i) {
      assert IsWhitespace(buf[i]);
    }
    if idx > 0 {
      assert before[0] == buf[idx - 1];
      assert Position(before, true) == Some(0);
      assert WordLeftSteps(buf, idx) == Some(0);
    } else {
      assert before == [];
      assert WordLeftSteps(buf, idx) == None;
    }
  }

  /** The second scan of `word_left`: from the last non-whitespace character
      before the cursor (`p1` places back), the whitespace before its word at
      index m, or m = -1 when the word starts the buffer. */
  lemma {:induction false} WordLeftSecondScan(buf: seq<char>, idx: int, p1: nat) returns (m: int)
    requires 0 <= p1 < idx <= |buf|
    requires !IsWhitespace(buf[idx - 1 - p1])
    ensures -1 <= m < idx - 1 - p1
    ensures m >= 0 ==> IsWhitespace(buf[m])
    ensures forall j :: m < j <= idx - 1 - p1 ==> !IsWhitespace(buf[j])
    ensures var second := Position(Reverse(buf)[p1 + |buf| - idx..], true);
            (second.Some? <==> m >= 0) && (second.Some? ==> second.value == idx - 1 - p1 - m)
  {
    var k := idx - 1 - p1;
    var word := Reverse(buf)[p1 + |buf| - idx..];
    ReversedPrefix(buf, p1 + |buf| - idx);
    var second := Position(word, true);
    if second.Some? {
      var p2 := second.value;
      m := k - p2;
      assert IsWhitespace(buf[m]) by {
        assert word[p2] == buf[m];
      }
      assert p2 >= 1 by {
        assert word[0] == buf[k];
      }
      forall j | m < j <= k ensures !IsWhitespace(buf[j]) {
        assert word[k - j] == buf[j];
      }
    } else {
      m := -1;
      forall j | 0 <= j <= k ensures !IsWhitespace(buf[j]) {
        assert word[k - j] == buf[j];
      }
    }
  }

  /** `word_left` moves the cursor to the target of its scans. */
  lemma {:induction false} WordLeftLandsOnWordStart(tp: TermPos)
    requires Valid(tp)
    ensures var r := WordLeft(tp);
            (exists j :: 0 <= j < tp.index && WordStart(tp.buffer, j)) ==>
              r.index < tp.index && WordStart(tp.buffer, r.index) &&
              forall j :: r.index < j < tp.index ==> !WordStart(tp.buffer, j)
    ensures (forall j :: 0 <= j < tp.index ==> !WordStart(tp.buffer, j)) ==> WordLeft(tp).index == tp.index
  {
    WordLeftTargetIsWordStart(tp.buffer, tp.index);
  }

  /** The two forward scans of `word_right`: the rest of the word under the
      cursor, then the whitespace after it. Some(n) steps right, or None when
      either scan runs off the end of the buffer (`end`). */
  function WordRightSteps(buf: seq<char>, index: int): (n: Option<nat>)
    requires 0 <= index <= |buf|
    ensures n.Some? ==> index + n.value < |buf|
  {
    match Position(buf[index..], true)
    case Some(p) =>
      var skipped := p + index;
      (match Position(buf[skipped..], false)
       case Some(q) => Some(q + (skipped - index))
       case None => None)
    case None => None
  }

  /** `word_right`: step right over the rest of the word and the whitespace after it. */
  function WordRight(tp: TermPos): (r: TermPos)
    requires Valid(tp)
    ensures Valid(r) && CursorOnly(r, tp)
    ensures r.index == WordRightTarget(tp.buffer, tp.index) >= tp.index
  {
    match WordRightSteps(tp.buffer, tp.index)
    case Some(n) => RightN(tp, n)
    case None => End(tp)
  }

  /** The index `word_right` lands on, as the scans determine it. */
  function WordRightTarget(buf: seq<char>, index: int): int
    requires 0 <= index <= |buf|
  {
    match WordRightSteps(buf, index)
    case Some(n) => index + n
    case None => |buf|
  }

  /** The scans of `word_right` find the start of the first word after the
      cursor, and the end of the buffer when no word starts after it. */
  lemma {:induction false} WordRightTargetIsWordStart(buf: seq<char>, idx: int)
    requires 0 <= idx <= |buf|
    ensures var j := WordRightTarget(buf, idx);
            (exists i :: idx < i < |buf| && WordStart(buf, i)) ==>
              idx < j && WordStart(buf, j) && forall i :: idx < i < j ==> !WordStart(buf, i)
    ensures (forall i :: idx < i < |buf| ==> !WordStart(buf, i)) ==> WordRightTarget(buf, idx) == |buf|
  {
    var rest := buf[idx..];
    var first := Position(rest, true);
    if first.Some? {
      var p := first.value;
      var skipped := p + idx;
      assert IsWhitespace(buf[skipped]) by {
        assert rest[p] == buf[skipped];
      }
      forall j | idx <= j < skipped ensures !IsWhitespace(buf[j]) {
        assert rest[j - idx] == buf[j];
      }
      var after := buf[skipped..];
      var second := Position(after, false);
      if second.Some? {
        var q := second.value;
        var j0 := skipped + q;
        assert !IsWhitespace(buf[j0]) by {
          assert after[q] == buf[j0];
        }
        forall j | skipped <= j < j0 ensures IsWhitespace(buf[j]) {
          assert after[j - skipped] == buf[j];
        }
        assert q > 0 && IsWhitespace(buf[j0 - 1]);
        assert WordStart(buf, j0) && idx < j0;
        assert WordRightTarget(buf, idx) == j0;
        FirstWordAfter(buf, idx, skipped, j0);
      } else {
        forall j | skipped <= j < |buf| ensures IsWhitespace(buf[j]) {
          assert after[j - skipped] == buf[j];
        }
        FirstWordAfter(buf, idx, skipped, |buf|);
      }
    } else {
      forall j | idx <= j < |buf| ensures !IsWhitespace(buf[j]) {
        assert rest[j - idx] == buf[j];
      }
      FirstWordAfter(buf, idx, |buf|, |buf|);
    }
  }

  /** A run of non-whitespace from `idx` to `skipped` followed by whitespace up
      to `j0` leaves no word start strictly between `idx` and `j0`. */
  lemma {:induction false} FirstWordAfter(buf: seq<char>, idx: int, skipped: int, j0: int)
    requires 0 <= idx <= skipped <= j0 <= |buf|
    requires forall j :: idx <= j < skipped ==> !IsWhitespace(buf[j])
    requires forall j :: skipped <= j < j0 ==> IsWhitespace(buf[j])
    ensures forall j :: idx < j < j0 ==> !WordStart(buf, j)
  {
    forall j | idx < j < j0
      ensures !WordStart(buf, j)
    {
      if j <= skipped {
        assert !IsWhitespace(buf[j - 1]);
      } else {
        assert IsWhitespace(buf[j]);
      }
    }
  }

  /** `word_right` moves the cursor to the target of its scans. */
  lemma {:induction false} WordRightLandsOnWordStart(tp: TermPos)
    requires Valid(tp)
    ensures var r := WordRight(tp);
            (exists j :: tp.index < j < |tp.buffer| && WordStart(tp.buffer, j)) ==>
              tp.index < r.index && WordStart(tp.buffer, r.index) &&
              forall j :: tp.index < j < r.index ==> !WordStart(tp.buffer, j)
    ensures (forall j :: tp.index < j < |tp.buffer| ==> !WordStart(tp.buffer, j)) ==>
              WordRight(tp).index == |tp.buffer|
  {
    WordRightTargetIsWordStart(tp.buffer, tp.index);
  }

  /** `clear_term`: the screen is cleared and the prompt redrawn on row 1. */
  function ClearTerm(tp: TermPos): (r: TermPos)
    requires Valid(tp)
    ensures Valid(r) && SameFrame(r, tp)
    ensures r.buffer == tp.buffer && r.index == tp.index && r.x == tp.x && r.dY == tp.dY
    ensures r.y == 1
  {
    tp.(y := 1)
  }

  /** Inserting each character of `s` in turn, as typing does. */
  function InsertAll(tp: TermPos, s: seq<char>): (r: TermPos)
    requires Valid(tp)
    ensures Valid(r) && SameFrame(r, tp)
    ensures r.buffer == tp.buffer[..tp.index] + s + tp.buffer[tp.index..]
    ensures r.index == tp.index + |s|
    decreases |s|
  {
    if |s| == 0 then tp
    else
      var t := Insert(tp, s[0]);
      var r := InsertAll(t, s[1..]);
      assert t.buffer[..t.index] == tp.buffer[..tp.index] + [s[0]];
      assert t.buffer[t.index..] == tp.buffer[tp.index..];
      assert [s[0]] + s[1..] == s;
      r
  }

  /** Typing a non-empty `s` is typing its first character, then the rest. */
  lemma InsertAllStep(tp: TermPos, s: seq<char>)
    requires Valid(tp) && |s| > 0
    ensures InsertAll(tp, s) == InsertAll(Insert(tp, s[0]), s[1..])
  {
  }

  /** Pressing backspace `n` times. */
  function BackspaceN(tp: TermPos, n: nat): (r: TermPos)
    decreases n
    requires Valid(tp)
    ensures Valid(r) && SameFrame(r, tp) && r.y == tp.y
  {
    if n == 0 then tp else BackspaceN(Backspace(tp), n - 1)
  }

  /** Backspace undoes an insertion; only the scrolled prompt row may differ. */
  lemma BackspaceUndoesInsert(tp: TermPos, c: char)
    requires Valid(tp)
    ensures Backspace(Insert(tp, c)) == tp.(y := Insert(tp, c).y)
  {
    var t := Insert(tp, c);
    var b := Backspace(t);
    assert b.buffer == tp.buffer by {
      assert t.buffer[..t.index - 1] == tp.buffer[..tp.index];
      assert t.buffer[t.index..] == tp.buffer[tp.index..];
    }
    SameIndexSamePos(b, tp.(y := t.y));
  }

  lemma {:induction false} BackspaceNLast(tp: TermPos, n: nat)
    decreases n
    requires Valid(tp)
    ensures BackspaceN(tp, n + 1) == Backspace(BackspaceN(tp, n))
  {
    if n > 0 {
      BackspaceNLast(Backspace(tp), n - 1);
    }
  }

  lemma {:induction false} BackspaceNIgnoresRow(tp: TermPos, n: nat, row: int)
    decreases n
    requires Valid(tp)
    ensures BackspaceN(tp.(y := row), n) == BackspaceN(tp, n).(y := row)
  {
    if n > 0 {
      assert Backspace(tp.(y := row)) == Backspace(tp).(y := row);
      BackspaceNIgnoresRow(Backspace(tp), n - 1, row);
    }
  }

  /** Typing `s` and then pressing backspace |s| times restores buffer, cursor
      and geometry; only the prompt row may have scrolled. */
  lemma {:induction false} TypeThenErase(tp: TermPos, s: seq<char>)
    requires Valid(tp)
    ensures BackspaceN(InsertAll(tp, s), |s|) == tp.(y := BackspaceN(InsertAll(tp, s), |s|).y)
    decreases |s|
  {
    if |s| > 0 {
      var t := Insert(tp, s[0]);
      var u := InsertAll(t, s[1..]);
      assert InsertAll(tp, s) == u;
      TypeThenErase(t, s[1..]);
      var w := BackspaceN(u, |s| - 1);
      assert w == t.(y := w.y);
      BackspaceNLast(u, |s| - 1);
      BackspaceUndoesInsert(tp, s[0]);
      BackspaceNIgnoresRow(t, 0, w.y);
      assert Backspace(t.(y := w.y)) == Backspace(t).(y := w.y);
    }
  }

  /** From an empty line, typing `s` gives exactly `s` with the cursor after
      it, and erasing it again gives back the empty line in the prompt's column. */
  lemma {:induction false} TypeIntoEmptyLine(tp: TermPos, s: seq<char>)
    requires Valid(tp) && tp.buffer == [] && tp.index == 0
    ensures InsertAll(tp, s).buffer == s && InsertAll(tp, s).index == |s|
    ensures var e := BackspaceN(InsertAll(tp, s), |s|);
            e.buffer == [] && e.index == 0 && e.x == tp.promptLen + 1 && e.dY == 0
  {
    assert tp.buffer[..0] + s + tp.buffer[0..] == s;
    TypeThenErase(tp, s);
    StartOfLine(tp);
  }

  /** At index 0 the cursor is right after the prompt, on the prompt row. */
  lemma StartOfLine(tp: TermPos)
    requires Valid(tp) && tp.index == 0
    ensures tp.dY == 0 && tp.x == tp.promptLen + 1
  {
    if tp.dY > 0 {
      MulAtLeast(tp.dY, tp.maxX);
    }
  }
}

=== FILE: history.dfy ===
/** The scrollback history (src/history.rs): submitted lines, most recent
    first, and a browsing cursor where -1 means "not browsing". */
module Scrollback {
  import opened Options

  datatype History = History(commands: seq<seq<char>>, current: int)

  /** What `prev` and `next` return: the history after the call and the entry
      to show, or None for "no further history". */
  datatype Browse = Browse(history: History, entry: Option<seq<char>>)

  /** `next` as written either returns or panics on its `unwrap`. */
  datatype NextOutcome = Returned(browse: Browse) | Panicked

  /** The browsing cursor is -1 or the index of an entry. */
  predicate Valid(h: History) {
    -1 <= h.current <= |h.commands| - 1
  }

  /** `History::new`. */
  function New(): (r: History)
    ensures Valid(r) && r.commands == [] && r.current == -1
  {
    History([], -1)
  }

  /** `push`: prepend the entry unless it repeats the most recent one. */
  function Push(h: History, entry: seq<char>): (r: History)
    ensures Valid(h) ==> Valid(r)
    ensures r.current == h.current
    ensures |r.commands| > 0 && r.commands[0] == entry
    ensures |r.commands| == if |h.commands| > 0 && h.commands[0] == entry then |h.commands| else |h.commands| + 1
    ensures r.commands[|r.commands| - |h.commands|..] == h.commands
  {
    if |h.commands| == 0 || h.commands[0] != entry then h.(commands := [entry] + h.commands) else h
  }

  /** `reset_index`: stop browsing. */
  function ResetIndex(h: History): (r: History)
    ensures Valid(r) && r.commands == h.commands && r.current == -1
  {
    h.(current := -1)
  }

  /** `prev`: one entry older, or None (and no change) at the oldest entry. */
  function Prev(h: History): (r: Browse)
    requires h.current >= -1
    ensures Valid(h) ==> Valid(r.history)
    ensures r.history.commands == h.commands
    ensures r.entry.None? <==> h.current >= |h.commands| - 1
    ensures r.entry.None? ==> r.history == h
    ensures r.entry.Some? ==> r.history.current == h.current + 1 && r.entry.value == h.commands[r.history.current]
  {
    if h.current >= |h.commands| - 1 then Browse(h, None)
    else
      var c := h.current + 1;
      Browse(h.(current := c), Some(h.commands[c]))
  }

  /** `next` as written: it decrements before reading, so at -1 it reads index
      -2 and the `unwrap` panics. */
  function NextAsWritten(h: History): (r: NextOutcome)
    ensures Valid(h) ==> (r.Panicked? <==> h.current == -1)
    ensures Valid(h) && h.current >= 0 ==> r == Returned(Next(h))
  {
    if h.current == 0 then Returned(Browse(h, None))
    else
      var c := h.current - 1;
      if 0 <= c < |h.commands| then Returned(Browse(h.(current := c), Some(h.commands[c])))
      else Panicked
  }

  /** `next`, returning "no further history" whenever the cursor is not past
      the newest entry, including when not browsing at all. */
  function Next(h: History): (r: Browse)
    requires Valid(h)
    ensures Valid(r.history)
    ensures r.history.commands == h.commands
    ensures r.entry.None? <==> h.current <= 0
    ensures r.entry.None? ==> r.history == h
    ensures r.entry.Some? ==> r.history.current == h.current - 1 && r.entry.value == h.commands[r.history.current]
  {
    if h.current <= 0 then Browse(h, None)
    else
      var c := h.current - 1;
      Browse(h.(current := c), Some(h.commands[c]))
  }

  /** Stepping back and then forward again returns to the same place and shows
      the entry that was current before. */
  lemma PrevThenNext(h: History)
    requires Valid(h) && h.current >= 0 && Prev(h).entry.Some?
    ensures Next(Prev(h).history) == Browse(h, Some(h.commands[h.current]))
  {
  }

  /** Stepping forward and then back again returns to the same place and shows
      the entry that was current before. */
  lemma NextThenPrev(h: History)
    requires Valid(h) && Next(h).entry.Some?
    ensures Prev(Next(h).history) == Browse(h, Some(h.commands[h.current]))
  {
  }

  /** Pushing the same entry twice in a row keeps one copy; the entry only
      reappears when something else was pushed in between. */
  lemma PushDuplicates(h: History, a: seq<char>, b: seq<char>)
    requires a != b
    ensures Push(Push(h, a), a) == Push(h, a)
    ensures |Push(Push(Push(h, a), b), a).commands| == |Push(h, a).commands| + 2
  {
    var ha := Push(h, a);
    var hb := Push(ha, b);
    assert hb.commands == [b] + ha.commands;
    assert hb.commands[0] != a;
  }

  /** Push "a", push "b", then prev, prev, next: the last call shows "b". */
  lemma BrowseExample()
    ensures var h := Push(Push(New(), "a"), "b");
            var p1 := Prev(h);
            var p2 := Prev(p1.history);
            var n := Next(p2.history);
            p1.entry == Some("b") && p2.entry == Some("a") && n.entry == Some("b")
  {
    var h := Push(Push(New(), "a"), "b");
    assert h.commands == ["b", "a"];
  }

  /** Browsing past either end signals "no further history": a fresh history
      has nothing before it, and `next` without browsing has nothing after it. */
  lemma NoFurtherHistory()
    ensures Prev(New()) == Browse(New(), None)
    ensures Next(New()) == Browse(New(), None)
    ensures NextAsWritten(New()) == Panicked
  {
  }
}

=== FILE: ints.dfy ===
/** The `min` and `max` of Rust's `std::cmp`, on unbounded integers. */
module Ints {
  function Min(a: int, b: int): int {
    if a < b then a else b
  }

  function Max(a: int, b: int): int {
    if a < b then b else a
  }
}

=== FILE: legacy_ui.dfy ===
/** The older line editor (src/ui.rs): the same cursor geometry as the
    current one, driven by termion keys directly, where Enter moves the prompt
    row below the line and ends the input. */
module LegacyUi {
  import opened Options
  import opened Events
  import opened Ints
  import G = Geometry

  /** The cursor state after a call to `get_input`, and the line it returned:
      the buffer on Enter, None on ctrl+c, ctrl+d or the end of input. */
  datatype Input = Input(tp: G.TermPos, line: Option<seq<char>>)

  /** `TermPos::new` with the terminal size passed in: the prompt starts on row 1. */
  function New(maxX: int, maxY: int): (r: G.TermPos)
    ensures maxX > |G.Prompt| ==> G.Valid(r)
    ensures r.buffer == [] && r.index == 0 && r.dY == 0 && r.x == |G.Prompt| + 1 && r.y == 1
    ensures r.maxX == maxX && r.maxY == maxY && r.promptLen == |G.Prompt|
  {
    G.New(maxX, maxY, 1)
  }

  /** `reset`: an empty line with the cursor after the prompt, on the same row. */
  function Reset(tp: G.TermPos): (r: G.TermPos)
    requires G.Valid(tp)
    ensures G.Valid(r) && G.SameFrame(r, tp) && r.y == tp.y
    ensures r.buffer == [] && r.index == 0 && r.dY == 0 && r.x == tp.promptLen + 1
  {
    tp.(buffer := [], index := 0, dY := 0, x := tp.promptLen + 1)
  }

  /** `char`: Enter moves the prompt row just below the line's last wrapped
      row, but never below the screen's last row; any other character is
      inserted as in the current editor. */
  function TypeChar(tp: G.TermPos, c: char): (r: G.TermPos)
    requires G.Valid(tp)
    ensures G.Valid(r) && G.SameFrame(r, tp)
    ensures c == '\n' ==> r.buffer == tp.buffer && r.index == tp.index && r.x == tp.x && r.dY == tp.dY
    ensures c == '\n' ==> r.y <= tp.maxY && (r.y == tp.maxY || r.y == tp.y + G.MaxDy(tp) + 1)
    ensures c != '\n' ==> r == G.Insert(tp, c)
  {
    if c == '\n' then tp.(y := Min(tp.y + G.MaxDy(tp) + 1, tp.maxY))
    else G.Insert(tp, c)
  }

  /** While the line and the row after it fit on the screen, Enter puts the
      prompt row exactly one row below the line's last character; otherwise on
      the screen's last row. */
  lemma NewlineRow(tp: G.TermPos)
    requires G.Valid(tp)
    ensures tp.y + G.MaxDy(tp) < tp.maxY ==> TypeChar(tp, '\n').y == tp.y + G.MaxDy(tp) + 1
    ensures tp.y + G.MaxDy(tp) >= tp.maxY ==> TypeChar(tp, '\n').y == tp.maxY
  {
  }

  /** `display_vec_on_new_line` without the writes: column 1, then one row
      down per string, stopping at the screen's last row. */
  function DisplayVecOnNewLine(tp: G.TermPos, v: seq<string>): (r: G.TermPos)
    ensures r == tp.(x := 1, y := r.y)
    ensures |v| == 0 ==> r.y == tp.y
    ensures |v| > 0 ==> r.y == Min(tp.y + |v|, tp.maxY)
    decreases |v|
  {
    if |v| == 0 then tp.(x := 1)
    else DisplayVecOnNewLine(tp.(y := Min(tp.y + 1, tp.maxY)), v[1..])
  }

  /** `display_string_on_new_line` without the write: column 1, one row down,
      stopping at the screen's last row. */
  function DisplayStringOnNewLine(tp: G.TermPos, s: string): (r: G.TermPos)
    ensures r == DisplayVecOnNewLine(tp, [s])
  {
    tp.(x := 1, y := Min(tp.y + 1, tp.maxY))
  }

  /** Showing two lists in turn is showing their concatenation. */
  lemma DisplayComposes(tp: G.TermPos, v: seq<string>, w: seq<string>)
    ensures DisplayVecOnNewLine(DisplayVecOnNewLine(tp, v), w) == DisplayVecOnNewLine(tp, v + w)
  {
  }

  /** Keys that end `get_input`: Enter, ctrl+c and ctrl+d. */
  predicate IsStop(k: Key) {
    k == Char('\n') || k == Ctrl('c') || k == Ctrl('d')
  }

  /** The position of the first key that ends the input, if any. */
  function FirstStop(keys: seq<Key>): (r: Option<nat>)
    ensures r.Some? ==> r.value < |keys| && IsStop(keys[r.value])
    ensures r.Some? ==> forall j :: 0 <= j < r.value ==> !IsStop(keys[j])
    ensures r.None? ==> forall j :: 0 <= j < |keys| ==> !IsStop(keys[j])
    decreases |keys|
  {
    if |keys| == 0 then None
    else if IsStop(keys[0]) then Some(0)
    else
      match FirstStop(keys[1..])
      case Some(i) => Some(i + 1)
      case None => None
  }

  /** What one key does inside `get_input`: move on with a new state, or end it. */
  datatype Step = Continue(tp: G.TermPos) | Stop(tp: G.TermPos, line: Option<seq<char>>)

  /** The body of the key loop of `get_input`. Up is the corrected `Geometry.Up`. */
  function HandleKey(tp: G.TermPos, k: Key): (r: Step)
    requires G.Valid(tp)
    ensures G.Valid(r.tp) && G.SameFrame(r.tp, tp)
    ensures r.Stop? <==> IsStop(k)
    ensures r.Stop? ==> (r.line.Some? <==> k == Char('\n'))
    ensures r.Stop? && r.line.Some? ==> r.line.value == tp.buffer && r.tp.buffer == tp.buffer
    ensures k.Char? && k.c != '\n' ==> r == Continue(G.Insert(tp, k.c))
    ensures r.tp.buffer != tp.buffer ==> k.Char? || k == Backspace || k == Delete
    ensures k == Char('\n') ==> r.tp == TypeChar(tp, '\n')
    ensures k == Backspace ==> r == Continue(G.Backspace(tp))
    ensures k == Delete ==> r == Continue(G.Delete(tp))
    ensures k == Left ==> r == Continue(G.Left(tp))
    ensures k == Right ==> r == Continue(G.Right(tp))
    ensures k == Up ==> r == Continue(G.Up(tp))
    ensures k == Down ==> r == Continue(G.Down(tp))
    ensures k == Home || k == Ctrl('a') ==> r == Continue(G.Beg(tp))
    ensures k == End || k == Ctrl('e') ==> r == Continue(G.End(tp))
    ensures (!k.Char? && k !in {Backspace, Delete, Left, Right, Up, Down, Home, End}
             && k !in {Ctrl('a'), Ctrl('e'), Ctrl('c'), Ctrl('d')}) ==> r == Continue(tp)
  {
    match k
    case Ctrl(c) =>
      if c == 'c' || c == 'd' then Stop(tp, None)
      else if c == 'a' then Continue(G.Beg(tp))
      else if c == 'e' then Continue(G.End(tp))
      else Continue(tp)
    case Char(c) =>
      var t := TypeChar(tp, c);
      if c == '\n' then Stop(t, Some(t.buffer)) else Continue(t)
    case Backspace => Continue(G.Backspace(tp))
    case Delete => Continue(G.Delete(tp))
    case Left => Continue(G.Left(tp))
    case Right => Continue(G.Right(tp))
    case Up => Continue(G.Up(tp))
    case Down => Continue(G.Down(tp))
    case Home => Continue(G.Beg(tp))
    case End => Continue(G.End(tp))
    case _ => Continue(tp)
  }

  /** The key loop of `get_input`, from the given state: it returns the
      buffer at the first Enter, unless ctrl+c or ctrl+d comes first. */
  function Run(tp: G.TermPos, keys: seq<Key>): (r: Input)
    requires G.Valid(tp)
    ensures G.Valid(r.tp) && G.SameFrame(r.tp, tp)
    ensures r.line.Some? ==> r.line.value == r.tp.buffer
    decreases |keys|
  {
    if |keys| == 0 then Input(tp, None)
    else
      match HandleKey(tp, keys[0])
      case Continue(t) => Run(t, keys[1..])
      case Stop(t, line) => Input(t, line)
  }

  /** The loop returns a line exactly when the first key that ends it is Enter. */
  lemma {:induction false} RunStopsAtFirstStop(tp: G.TermPos, keys: seq<Key>)
    requires G.Valid(tp)
    ensures Run(tp, keys).line.Some? <==> FirstStop(keys).Some? && keys[FirstStop(keys).value] == Char('\n')
    decreases |keys|
  {
    if |keys| > 0 {
      var h := HandleKey(tp, keys[0]);
      if h.Continue? {
        RunStopsAtFirstStop(h.tp, keys[1..]);
        var f := FirstStop(keys[1..]);
        assert f.Some? ==> keys[1..][f.value] == keys[f.value + 1];
      }
    }
  }

  /** `get_input`: reset the line, then read keys. */
  function GetInput(tp: G.TermPos, keys: seq<Key>): (r: Input)
    requires G.Valid(tp)
    ensures G.Valid(r.tp) && G.SameFrame(r.tp, tp)
    ensures r.line.Some? <==> FirstStop(keys).Some? && keys[FirstStop(keys).value] == Char('\n')
  {
    RunStopsAtFirstStop(Reset(tp), keys);
    Run(Reset(tp), keys)
  }

  /** The keys typing `s` produces. */
  function Keys(s: seq<char>): (keys: seq<Key>)
    ensures |keys| == |s| && forall i :: 0 <= i < |s| ==> keys[i] == Char(s[i])
  {
    seq(|s|, i requires 0 <= i < |s| => Char(s[i]))
  }

  /** A character other than Enter is inserted and the loop goes on. */
  lemma {:induction false} RunChar(tp: G.TermPos, keys: seq<Key>)
    requires G.Valid(tp) && |keys| > 0 && keys[0].Char? && keys[0].c != '\n'
    ensures Run(tp, keys) == Run(G.Insert(tp, keys[0].c), keys[1..])
  {
    assert HandleKey(tp, keys[0]) == Continue(G.Insert(tp, keys[0].c));
  }

  /** Typing characters other than Enter inserts them one by one. */
  lemma {:induction false} RunTyped(tp: G.TermPos, s: seq<char>, rest: seq<Key>)
    requires G.Valid(tp)
    requires forall i :: 0 <= i < |s| ==> s[i] != '\n'
    ensures Run(tp, Keys(s) + rest) == Run(G.InsertAll(tp, s), rest)
    decreases |s|
  {
    if |s| > 0 {
      var keys := Keys(s) + rest;
      var t := G.Insert(tp, s[0]);
      assert keys[0] == Char(s[0]);
      assert keys[1..] == Keys(s[1..]) + rest by {
        assert Keys(s)[1..] == Keys(s[1..]);
      }
      assert forall i :: 0 <= i < |s[1..]| ==> s[1..][i] == s[i + 1];
      calc {
        Run(tp, keys);
        { RunChar(tp, keys); }
        Run(t, keys[1..]);
        Run(t, Keys(s[1..]) + rest);
        { RunTyped(t, s[1..], rest); }
        Run(G.InsertAll(t, s[1..]), rest);
        { G.InsertAllStep(tp, s); }
        Run(G.InsertAll(tp, s), rest);
      }
    } else {
      assert Keys(s) + rest == rest;
    }
  }

  /** A line typed and ended by Enter is returned as typed, and the prompt
      row moves below it; ctrl+c or ctrl+d returns nothing. */
  lemma {:induction false} TypeLineThenEnter(tp: G.TermPos, s: seq<char>, rest: seq<Key>)
    requires G.Valid(tp)
    requires forall i :: 0 <= i < |s| ==> s[i] != '\n'
    ensures GetInput(tp, Keys(s) + [Char('\n')] + rest).line == Some(s)
    ensures GetInput(tp, [Ctrl('c')] + rest).line == None
    ensures GetInput(tp, [Ctrl('d')] + rest).line == None
  {
    var r := Reset(tp);
    assert Keys(s) + [Char('\n')] + rest == Keys(s) + ([Char('\n')] + rest);
    RunTyped(r, s, [Char('\n')] + rest);
    G.TypeIntoEmptyLine(r, s);
  }
}

=== FILE: options.dfy ===
/** The Option type used wherever the source returns `Option<T>`. */
module Options {

  datatype Option<+T> = None | Some(value: T)
}

=== FILE: pgpass.dfy ===
/** The password-file reader (src/pgpass.rs): a permission check on the
    file's mode, then one `host:port:database:user:password` entry per
    line, with `#` lines skipped. Opening the file and reading its metadata
    are reduced to a `FileProbe` value. */
module PgPass {
  import opened Options

  /** An `Entry`: the five colon-separated fields of a line. */
  datatype Entry = Entry(host: string, port: string, database: string, user: string, password: string)

  /** What opening a path yields: an error from `File::open`, an error from
      `metadata`, or the file's mode bits and its lines. */
  datatype FileProbe = CannotOpen | NoMetadata | Opened(mode: nat, lines: seq<string>)

  /** What `parse_file` does with one uncommented line: it prints the entry
      or reports the line as ignored. */
  datatype LineOutcome = Parsed(entry: Entry) | Ignored(line: string)

  /** The outcome of every uncommented line, and the password the reader returns. */
  datatype Report = Report(outcomes: seq<LineOutcome>, password: Option<string>)

  /** The number of ':' in `s`. */
  function Colons(s: string): nat
    decreases |s|
  {
    if |s| == 0 then 0 else (if s[0] == ':' then 1 else 0) + Colons(s[1..])
  }

  /** `str::split(':')`: the pieces between colons, always at least one (the
      empty string gives one empty piece), none containing a colon. */
  function Split(s: string): (fields: seq<string>)
    ensures |fields| == Colons(s) + 1
    ensures forall i :: 0 <= i < |fields| ==> ':' !in fields[i]
    decreases |s|
  {
    if |s| == 0 then [""]
    else
      var rest := Split(s[1..]);
      if s[0] == ':' then [""] + rest else [[s[0]] + rest[0]] + rest[1..]
  }

  /** The pieces glued back together with ':' between them. */
  function Join(fields: seq<string>): string
    requires |fields| >= 1
    decreases |fields|
  {
    if |fields| == 1 then fields[0] else fields[0] + ":" + Join(fields[1..])
  }

  /** Splitting loses nothing: joining the pieces gives the line back. */
  lemma {:induction false} JoinSplit(s: string)
    ensures Join(Split(s)) == s
    decreases |s|
  {
    if |s| > 0 {
      var rest := Split(s[1..]);
      JoinSplit(s[1..]);
      if s[0] == ':' {
        assert Split(s) == [""] + rest;
        assert Split(s)[1..] == rest;
      } else {
        var fields := Split(s);
        assert fields[1..] == rest[1..];
        if |rest| == 1 {
          assert fields == [[s[0]] + rest[0]];
        } else {
          assert Join(rest) == rest[0] + ":" + Join(rest[1..]);
        }
      }
    }
  }

  /** A colon-free piece followed by a colon splits off as the first field. */
  lemma {:induction false} SplitAfterField(a: string, b: string)
    requires ':' !in a
    ensures Split(a + ":" + b) == [a] + Split(b)
    decreases |a|
  {
    if |a| == 0 {
      assert a + ":" + b == [':'] + b;
      assert ([':'] + b)[1..] == b;
    } else {
      var s := a + ":" + b;
      assert s[0] == a[0];
      assert s[1..] == a[1..] + ":" + b;
      SplitAfterField(a[1..], b);
      assert [a[0]] + a[1..] == a;
    }
  }

  /** A colon-free string is one field. */
  lemma {:induction false} SplitNoColon(a: string)
    requires ':' !in a
    ensures Split(a) == [a]
    decreases |a|
  {
    if |a| > 0 {
      SplitNoColon(a[1..]);
      assert [a[0]] + a[1..] == a;
    }
  }

  /** Joining colon-free fields and splitting again gives the same fields. */
  lemma {:induction false} SplitJoin(fields: seq<string>)
    requires |fields| >= 1
    requires forall i :: 0 <= i < |fields| ==> ':' !in fields[i]
    ensures Split(Join(fields)) == fields
    decreases |fields|
  {
    if |fields| == 1 {
      SplitNoColon(fields[0]);
    } else {
      SplitJoin(fields[1..]);
      SplitAfterField(fields[0], Join(fields[1..]));
      assert [fields[0]] + fields[1..] == fields;
    }
  }

  /** `Entry::parse`: the first five fields, or None when there are fewer. */
  function ParseEntry(line: string): (r: Option<Entry>)
    ensures r.None? <==> Colons(line) < 4
    ensures r.Some? ==> [r.value.host, r.value.port, r.value.database, r.value.user, r.value.password] == Split(line)[..5]
  {
    var f := Split(line);
    if |f| < 5 then None else Some(Entry(f[0], f[1], f[2], f[3], f[4]))
  }

  /** The line an entry is written as. */
  function Line(e: Entry): string {
    Join([e.host, e.port, e.database, e.user, e.password])
  }

  /** Every entry whose fields hold no ':' is read back from its own line. */
  lemma {:induction false} EntryRoundTrip(e: Entry)
    requires ':' !in e.host && ':' !in e.port && ':' !in e.database && ':' !in e.user && ':' !in e.password
    ensures ParseEntry(Line(e)) == Some(e)
  {
    var fields := [e.host, e.port, e.database, e.user, e.password];
    SplitJoin(fields);
  }

  /** The first piece of `Split` is the text before the first colon: all of
      the string exactly when it holds no colon. */
  lemma {:induction false} FirstField(s: string)
    ensures Split(s)[0] == s <==> ':' !in s
  {
    if ':' !in s {
      SplitNoColon(s);
    }
  }

  /** Four colon-free fields, each followed by a colon, split off in order. */
  lemma {:induction false} SplitFourFields(h: string, p: string, d: string, u: string, pw: string)
    requires ':' !in h && ':' !in p && ':' !in d && ':' !in u
    ensures Split(h + ":" + p + ":" + d + ":" + u + ":" + pw) == [h, p, d, u] + Split(pw)
  {
    var s4 := u + ":" + pw;
    var s3 := d + ":" + s4;
    var s2 := p + ":" + s3;
    var s1 := h + ":" + s2;
    assert s1 == h + ":" + p + ":" + d + ":" + u + ":" + pw;
    SplitAfterField(u, pw);
    SplitAfterField(d, s4);
    SplitAfterField(p, s3);
    SplitAfterField(h, s2);
  }

  /** There is no escaping: a password containing ':' is cut at its first
      colon, and the rest of the line is dropped. */
  lemma {:induction false} PasswordTruncated(h: string, p: string, d: string, u: string, pw: string)
    requires ':' !in h && ':' !in p && ':' !in d && ':' !in u
    ensures ParseEntry(h + ":" + p + ":" + d + ":" + u + ":" + pw) == Some(Entry(h, p, d, u, Split(pw)[0]))
    ensures pw == Split(pw)[0] <==> ':' !in pw
  {
    var line := h + ":" + p + ":" + d + ":" + u + ":" + pw;
    SplitFourFields(h, p, d, u, pw);
    var f := Split(line);
    assert f[0] == h && f[1] == p && f[2] == d && f[3] == u && f[4] == Split(pw)[0];
    FirstField(pw);
  }

  /** `Entry::matches`: each of host, port, database and user is "*" or
      equal to the target's. An all-wildcard entry matches every target; an
      entry without wildcards matches only its own fields; a field that is
      neither "*" nor the target's rules it out. */
  function Matches(e: Entry, host: string, port: string, database: string, user: string): (r: bool)
    ensures e.host == "*" && e.port == "*" && e.database == "*" && e.user == "*" ==> r
    ensures e.host != "*" && e.port != "*" && e.database != "*" && e.user != "*" ==>
              (r <==> host == e.host && port == e.port && database == e.database && user == e.user)
    ensures (e.host != "*" && host != e.host) || (e.port != "*" && port != e.port) ==> !r
    ensures (e.database != "*" && database != e.database) || (e.user != "*" && user != e.user) ==> !r
  {
    (e.host == "*" || host == e.host)
    && (e.port == "*" || port == e.port)
    && (e.database == "*" || database == e.database)
    && (e.user == "*" || user == e.user)
  }

  /** The password takes no part in matching. */
  lemma MatchIgnoresPassword(e: Entry, q: string, host: string, port: string, database: string, user: string)
    ensures Matches(e.(password := q), host, port, database, user) == Matches(e, host, port, database, user)
  {
  }

  /** A "*" field matches exactly as the target's own value would: together
      with the exact-match case of `Matches`, this settles every mix of
      wildcards and literals. */
  lemma WildcardActsAsTarget(e: Entry, host: string, port: string, database: string, user: string)
    ensures Matches(e.(host := "*"), host, port, database, user) == Matches(e.(host := host), host, port, database, user)
    ensures Matches(e.(port := "*"), host, port, database, user) == Matches(e.(port := port), host, port, database, user)
    ensures Matches(e.(database := "*"), host, port, database, user) == Matches(e.(database := database), host, port, database, user)
    ensures Matches(e.(user := "*"), host, port, database, user) == Matches(e.(user := user), host, port, database, user)
  {
  }

  /** A typical entry with a wildcard database matches any database for
      that host, port and user. */
  lemma WildcardDatabaseExample(e: Entry, database: string)
    requires e == Entry("localhost", "5432", "*", "me", "pw")
    ensures Matches(e, "localhost", "5432", database, "me")
    ensures !Matches(e, "localhost", "5433", database, "me")
  {
  }

  /** Bits a mode grants to the group or to others. */
  predicate GroupOrOtherAccess(mode: nat) {
    mode % 64 != 0
  }

  /** The octal digits of the permission bits: owner, group, others. */
  function OwnerDigit(mode: nat): nat { mode / 64 % 8 }
  function GroupDigit(mode: nat): nat { mode / 8 % 8 }
  function OtherDigit(mode: nat): nat { mode % 8 }

  /** The permission bits are the three octal digits. */
  lemma Digits(mode: nat)
    ensures mode % 64 == 8 * GroupDigit(mode) + OtherDigit(mode)
    ensures mode % 512 == 64 * OwnerDigit(mode) + mode % 64
    ensures OwnerDigit(mode) < 8 && GroupDigit(mode) < 8 && OtherDigit(mode) < 8
  {
    OwnerSplit(mode);
    GroupSplit(mode);
  }

  /** The low nine bits are the owner digit above the low six. */
  lemma OwnerSplit(n: nat)
    ensures n % 512 == 64 * (n / 64 % 8) + n % 64
  {
    var q, r := n / 512, n % 512;
    assert n == 512 * q + r;
    assert n / 64 == 8 * q + r / 64 && n % 64 == r % 64;
  }

  /** The low six bits are the group digit above the low three. */
  lemma GroupSplit(n: nat)
    ensures n % 64 == 8 * (n / 8 % 8) + n % 8
  {
    var q, r := n / 64, n % 64;
    assert n == 64 * q + r;
    assert n / 8 == 8 * q + r / 8 && n % 8 == r % 8;
  }

  /** The check in `open_file_if_safe` as written: the permission bits
      (`mode & 0o777`, the low nine bits) compared as a number with 0o600
      (384). Digit by digit, that passes an owner digit below 6 whatever the
      group and others get, and an owner digit of 6 only with nothing for them. */
  function IsSafeModeAsWritten(mode: nat): (ok: bool)
    ensures ok <==> OwnerDigit(mode) < 6
                    || (OwnerDigit(mode) == 6 && GroupDigit(mode) == 0 && OtherDigit(mode) == 0)
  {
    Digits(mode);
    mode % 512 <= 384
  }

  /** The as-written check compares numbers, not bits: 0o600 and 0o400 pass
      and 0o644 fails, but 0o477, which gives group and others every right,
      passes too, since it is below 0o600 as a number. */
  lemma ModeCompareIsNotBitmask()
    ensures IsSafeModeAsWritten(384) && IsSafeModeAsWritten(256) && !IsSafeModeAsWritten(420)
    ensures IsSafeModeAsWritten(319) && GroupOrOtherAccess(319)
  {
  }

  /** The check with the group and other bits checked as bits, as the password
      file's convention intends: the owner's digit at most 6 as a number, and
      no bits at all for group or others. */
  function IsSafeMode(mode: nat): (ok: bool)
    ensures ok <==> OwnerDigit(mode) <= 6 && GroupDigit(mode) == 0 && OtherDigit(mode) == 0
  {
    Digits(mode);
    mode % 512 <= 384 && !GroupOrOtherAccess(mode)
  }

  /** The corrected check passes no file that group or others may touch, and
      agrees with the as-written check on every mode that grants them nothing. */
  lemma SafeModeProperties(mode: nat)
    ensures IsSafeMode(mode) ==> !GroupOrOtherAccess(mode) && IsSafeModeAsWritten(mode)
    ensures !GroupOrOtherAccess(mode) ==> (IsSafeMode(mode) <==> IsSafeModeAsWritten(mode))
    ensures IsSafeMode(384) && IsSafeMode(256) && !IsSafeMode(420) && !IsSafeMode(319)
  {
  }

  /** `open_file_if_safe`: the lines of a file that opened, whose metadata
      was readable, and whose mode passes the check. */
  function OpenIfSafe(f: FileProbe): (r: Option<seq<string>>)
    ensures r.Some? <==> f.Opened? && IsSafeMode(f.mode)
    ensures r.Some? ==> r.value == f.lines
  {
    match f
    case Opened(mode, lines) => if IsSafeMode(mode) then Some(lines) else None
    case _ => None
  }

  /** `starts_with('#')`. */
  predicate IsComment(line: string) {
    |line| > 0 && line[0] == '#'
  }

  /** The comment filter of `parse_file`: the lines not starting with '#', in order. */
  function Uncommented(lines: seq<string>): (r: seq<string>)
    ensures |r| <= |lines|
    ensures forall i :: 0 <= i < |r| ==> !IsComment(r[i])
  {
    if |lines| == 0 then []
    else if IsComment(lines[0]) then Uncommented(lines[1..])
    else [lines[0]] + Uncommented(lines[1..])
  }

  /** The filter drops exactly the comment lines: a line survives it exactly
      when it is in the file and does not start with '#'. */
  lemma {:induction false} UncommentedKeepsTheRest(lines: seq<string>, l: string)
    ensures l in Uncommented(lines) <==> l in lines && !IsComment(l)
    decreases |lines|
  {
    if |lines| > 0 {
      UncommentedKeepsTheRest(lines[1..], l);
      assert lines == [lines[0]] + lines[1..];
    }
  }

  /** What happens to one uncommented line. */
  function Outcome(line: string): (o: LineOutcome)
    ensures o.Parsed? <==> Colons(line) >= 4
    ensures o.Ignored? ==> o.line == line
    ensures o.Parsed? ==> var f := Split(line);
              o.entry == Entry(f[0], f[1], f[2], f[3], f[4])
  {
    match ParseEntry(line)
    case Some(e) => Parsed(e)
    case None => Ignored(line)
  }

  /** `parse_file`: every uncommented line is parsed or ignored, and the
      result is None whatever the file holds. */
  function ParseFile(lines: seq<string>): (r: Report)
    ensures r.password == None
    ensures |r.outcomes| == |Uncommented(lines)|
    ensures forall i :: 0 <= i < |r.outcomes| ==> r.outcomes[i] == Outcome(Uncommented(lines)[i])
  {
    var u := Uncommented(lines);
    Report(seq(|u|, i requires 0 <= i < |u| => Outcome(u[i])), None)
  }

  /** `parse` with the path's file already probed: None, whether the file
      opened or not. */
  function Parse(f: FileProbe): (r: Option<string>)
    ensures r == None
  {
    match OpenIfSafe(f)
    case Some(lines) => ParseFile(lines).password
    case None => None
  }

  /** The filter works line by line: filtering a concatenation is
      concatenating the filtered parts, so the kept lines keep their order
      and their number of copies. */
  lemma {:induction false} UncommentedAppend(a: seq<string>, b: seq<string>)
    ensures Uncommented(a + b) == Uncommented(a) + Uncommented(b)
    decreases |a|
  {
    if |a| == 0 {
      assert a + b == b;
    } else {
      UncommentedAppend(a[1..], b);
      assert (a + b)[0] == a[0];
      assert (a + b)[1..] == a[1..] + b;
    }
  }

  /** A file without comment lines passes the filter unchanged. */
  lemma {:induction false} UncommentedNoComments(lines: seq<string>)
    requires forall i :: 0 <= i < |lines| ==> !IsComment(lines[i])
    ensures Uncommented(lines) == lines
    decreases |lines|
  {
    if |lines| > 0 {
      UncommentedNoComments(lines[1..]);
      assert lines == [lines[0]] + lines[1..];
    }
  }

  /** A comment line added anywhere changes neither the filtered lines nor the report. */
  lemma CommentsChangeNothing(before: seq<string>, c: string, after: seq<string>)
    requires IsComment(c)
    ensures Uncommented(before + [c] + after) == Uncommented(before + after)
    ensures ParseFile(before + [c] + after) == ParseFile(before + after)
  {
    UncommentedSkipsComment(before, c, after);
  }

  lemma {:induction false} UncommentedSkipsComment(before: seq<string>, c: string, after: seq<string>)
    requires IsComment(c)
    ensures Uncommented(before + [c] + after) == Uncommented(before + after)
    decreases |before|
  {
    if |before| == 0 {
      assert before + [c] + after == [c] + after;
      assert ([c] + after)[1..] == after;
      assert before + after == after;
    } else {
      UncommentedSkipsComment(before[1..], c, after);
      assert (before + [c] + after)[1..] == before[1..] + [c] + after;
      assert (before + after)[1..] == before[1..] + after;
      assert (before + [c] + after)[0] == before[0] && (before + after)[0] == before[0];
    }
  }
}

=== FILE: session.dfy ===
/** The submit step of the outer loop (src/ui/event_loop.rs): a line the
    editor hands back is pushed onto the history, and browsing is reset. */
module Session {
  import G = Geometry
  import TI = TextInput
  import H = Scrollback

  /** Push the submitted line, then `reset_index`. */
  function Submit(h: H.History, raw: seq<char>): (r: H.History)
    ensures H.Valid(r) && r.current == -1
    ensures |r.commands| > 0 && r.commands[0] == raw
    ensures r.commands == if |h.commands| > 0 && h.commands[0] == raw then h.commands else [raw] + h.commands
  {
    H.ResetIndex(H.Push(h, raw))
  }

  /** Typing a line into a fresh editor and pressing Enter submits that line;
      the history gains it as its newest entry (once, however often it was
      just submitted) and stops browsing. */
  lemma {:induction false} TypeEnterSubmit(tp: G.TermPos, h: H.History, s: seq<char>)
    requires G.Valid(tp) && tp.buffer == [] && tp.index == 0
    requires forall i :: 0 <= i < |s| ==> s[i] != '\n'
    ensures var out := TI.HandleEvent(TI.Type(tp, s), TI.CharEvent('\n')).out;
            out == TI.Buffer(s, s) &&
            Submit(h, out.raw).current == -1 &&
            Submit(h, out.raw).commands == (if |h.commands| > 0 && h.commands[0] == s then h.commands else [s] + h.commands)
  {
    TI.TypeThenEnter(tp, s);
  }

  /** "select 1;" typed into a fresh editor with an empty history: exactly one
      entry, "select 1;", and the cursor back at -1. */
  lemma {:induction false} SelectOneExample(tp: G.TermPos, s: seq<char>)
    requires G.Valid(tp) && tp.buffer == [] && tp.index == 0
    requires s == "select 1;"
    ensures var out := TI.HandleEvent(TI.Type(tp, s), TI.CharEvent('\n')).out;
            out == TI.Buffer(s, s) && Submit(H.New(), out.raw) == H.History([s], -1)
  {
    TypeEnterSubmit(tp, H.New(), s);
  }
}

=== FILE: text_input.dfy ===
/** The line editor (`TextInput` in src/ui/text_input.rs): dispatches
    normalised key events to the cursor geometry and reports the events its
    caller must act on. Redrawing the line is left out. */
module TextInput {
  import opened Events
  import G = Geometry

  /** `TextInputEvent`: what one key press asks of the caller. */
  datatype TextInputEvent =
    | Quit
    | HistoryPrev
    | HistoryNext
    | Buffer(raw: seq<char>, text: string)
    | Nothing

  datatype Handled = Handled(tp: G.TermPos, out: TextInputEvent)

  /** `handle_event`. */
  function HandleEvent(tp: G.TermPos, e: TrueEvent): (r: Handled)
    requires G.Valid(tp)
    ensures G.Valid(r.tp) && G.SameFrame(r.tp, tp)
    ensures r.out.Buffer? <==> e == KeyInput(Plain(Char('\n')))
    ensures r.out.Buffer? ==> r.out.raw == tp.buffer && r.out.text == tp.buffer
    ensures r.out == Quit <==> e == KeyInput(CtrlChord(Char('c'))) || e == KeyInput(CtrlChord(Char('d')))
    ensures r.out == HistoryPrev <==> e == KeyInput(CtrlChord(Up))
    ensures r.out == HistoryNext <==> e == KeyInput(CtrlChord(Down))
    ensures r.out != Nothing ==> r.tp == tp
    ensures !e.KeyInput? ==> r == Handled(tp, Nothing)
    ensures r.tp.buffer != tp.buffer ==> e.KeyInput? && e.ke.Plain? && (e.ke.key.Char? || e.ke.key == Backspace || e.ke.key == Delete)
    ensures e.KeyInput? && e.ke.Plain? && e.ke.key.Char? && e.ke.key.c != '\n' ==> r.tp == G.Insert(tp, e.ke.key.c)
    ensures e == KeyInput(Plain(Backspace)) ==> r.tp == G.Backspace(tp)
    ensures e == KeyInput(Plain(Delete)) ==> r.tp == G.Delete(tp)
    ensures e == KeyInput(Plain(Left)) ==> r.tp == G.Left(tp)
    ensures e == KeyInput(Plain(Right)) ==> r.tp == G.Right(tp)
    ensures e == KeyInput(Plain(Up)) ==> r.tp == G.Up(tp)
    ensures e == KeyInput(Plain(Down)) ==> r.tp == G.Down(tp)
    ensures e == KeyInput(Plain(Home)) || e == KeyInput(CtrlChord(Char('a'))) ==> r.tp == G.Beg(tp)
    ensures e == KeyInput(Plain(End)) || e == KeyInput(CtrlChord(Char('e'))) ==> r.tp == G.End(tp)
    ensures e == KeyInput(Plain(PageUp)) || e == KeyInput(CtrlChord(Left)) ==> r.tp == G.WordLeft(tp)
    ensures e == KeyInput(Plain(PageDown)) || e == KeyInput(CtrlChord(Right)) ==> r.tp == G.WordRight(tp)
    ensures e == KeyInput(CtrlChord(Char('l'))) ==> r.tp == G.ClearTerm(tp) && r.tp.y == 1
    ensures e.KeyInput? && e.ke.AltChord? ==> r == Handled(tp, Nothing)
    ensures (e.KeyInput? && e.ke.CtrlChord?
             && e.ke.key !in {Char('c'), Char('d'), Char('a'), Char('e'), Char('l'), Left, Right, Up, Down}) ==> r == Handled(tp, Nothing)
    ensures (e.KeyInput? && e.ke.Plain? && !e.ke.key.Char?
             && e.ke.key !in {Backspace, Delete, Left, Right, Up, Down, Home, End, PageUp, PageDown}) ==> r == Handled(tp, Nothing)
  {
    match e
    case KeyInput(ke) =>
      (match ke
       case Plain(k) =>
         (match k
          case Char(c) =>
            if c == '\n' then Handled(tp, Buffer(tp.buffer, tp.buffer))
            else Handled(G.Insert(tp, c), Nothing)
          case Backspace => Handled(G.Backspace(tp), Nothing)
          case Delete => Handled(G.Delete(tp), Nothing)
          case Left => Handled(G.Left(tp), Nothing)
          case Right => Handled(G.Right(tp), Nothing)
          case Up => Handled(G.Up(tp), Nothing)
          case Down => Handled(G.Down(tp), Nothing)
          case Home => Handled(G.Beg(tp), Nothing)
          case End => Handled(G.End(tp), Nothing)
          case PageUp => Handled(G.WordLeft(tp), Nothing)
          case PageDown => Handled(G.WordRight(tp), Nothing)
          case _ => Handled(tp, Nothing))
       case CtrlChord(k) =>
         (match k
          case Char(c) =>
            if c == 'c' || c == 'd' then Handled(tp, Quit)
            else if c == 'a' then Handled(G.Beg(tp), Nothing)
            else if c == 'e' then Handled(G.End(tp), Nothing)
            else if c == 'l' then Handled(G.ClearTerm(tp), Nothing)
            else Handled(tp, Nothing)
          case Left => Handled(G.WordLeft(tp), Nothing)
          case Right => Handled(G.WordRight(tp), Nothing)
          case Up => Handled(tp, HistoryPrev)
          case Down => Handled(tp, HistoryNext)
          case _ => Handled(tp, Nothing))
       case AltChord(_) => Handled(tp, Nothing))
    case _ => Handled(tp, Nothing)
  }

  /** `data`: the live buffer. */
  function Data(tp: G.TermPos): seq<char> {
    tp.buffer
  }

  /** `set_data`: replace the buffer (a history entry, say) and move to its end. */
  function SetData(tp: G.TermPos, d: seq<char>): (r: G.TermPos)
    requires G.Valid(tp)
    ensures G.Valid(r) && G.SameFrame(r, tp) && r.y == tp.y
    ensures Data(r) == d && r.index == |d|
  {
    G.End(tp.(buffer := d, index := 0, x := tp.promptLen + 1, dY := 0))
  }

  /** The key event a typed character produces. */
  function CharEvent(c: char): TrueEvent {
    KeyInput(Plain(Char(c)))
  }

  /** Typing the characters of `s` one key press at a time. */
  function Type(tp: G.TermPos, s: seq<char>): (r: G.TermPos)
    requires G.Valid(tp)
    ensures G.Valid(r)
    decreases |s|
  {
    if |s| == 0 then tp else Type(HandleEvent(tp, CharEvent(s[0])).tp, s[1..])
  }

  /** Typing a line without newlines inserts it at the cursor, character by character. */
  lemma {:induction false} TypeInserts(tp: G.TermPos, s: seq<char>)
    requires G.Valid(tp)
    requires forall i :: 0 <= i < |s| ==> s[i] != '\n'
    ensures Type(tp, s) == G.InsertAll(tp, s)
    decreases |s|
  {
    if |s| > 0 {
      assert HandleEvent(tp, CharEvent(s[0])).tp == G.Insert(tp, s[0]);
      TypeInserts(G.Insert(tp, s[0]), s[1..]);
    }
  }

  /** Typing a line and pressing Enter submits exactly the typed characters,
      both as characters and as a string, and leaves the editor state alone. */
  lemma {:induction false} TypeThenEnter(tp: G.TermPos, s: seq<char>)
    requires G.Valid(tp) && tp.buffer == [] && tp.index == 0
    requires forall i :: 0 <= i < |s| ==> s[i] != '\n'
    ensures var t := Type(tp, s);
            HandleEvent(t, CharEvent('\n')) == Handled(t, Buffer(s, s)) && t.index == |s|
  {
    TypeInserts(tp, s);
    G.TypeIntoEmptyLine(tp, s);
  }

  /** A word start with no other word start between it and the cursor is
      where word-left lands. */
  lemma {:induction false} WordLeftToLastStart(b: seq<char>, idx: int, j: int)
    requires 0 <= j < idx <= |b|
    requires G.WordStart(b, j) && forall i :: j < i < idx ==> !G.WordStart(b, i)
    ensures G.WordLeftTarget(b, idx) == j
  {
    G.WordLeftTargetIsWordStart(b, idx);
  }

  /** The word-left targets in "select  * from t": from the end to "t", from
      "t" to "from", from "from" to "*". */
  lemma WordLeftTargetsExample(b: seq<char>)
    requires b == "select  * from t"
    ensures G.WordLeftTarget(b, 16) == 15
    ensures G.WordLeftTarget(b, 15) == 10
    ensures G.WordLeftTarget(b, 10) == 8
  {
    WordLeftFromEnd(b);
    WordLeftFromT(b);
    WordLeftFromFrom(b);
  }

  lemma {:induction false} WordLeftFromEnd(b: seq<char>)
    requires b == "select  * from t"
    ensures G.WordLeftTarget(b, 16) == 15
  {
    assert b[14] == ' ' && b[15] == 't';
    WordLeftToLastStart(b, 16, 15);
  }

  lemma {:induction false} WordLeftFromT(b: seq<char>)
    requires b == "select  * from t"
    ensures G.WordLeftTarget(b, 15) == 10
  {
    assert b[9] == ' ' && b[10] == 'f';
    assert b[11] == 'r' && b[12] == 'o' && b[13] == 'm' && b[14] == ' ';
    assert !G.WordStart(b, 11) && !G.WordStart(b, 12) && !G.WordStart(b, 13) && !G.WordStart(b, 14);
    WordLeftToLastStart(b, 15, 10);
  }

  lemma {:induction false} WordLeftFromFrom(b: seq<char>)
    requires b == "select  * from t"
    ensures G.WordLeftTarget(b, 10) == 8
  {
    assert b[7] == ' ' && b[8] == '*' && b[9] == ' ';
    assert !G.WordStart(b, 9);
    WordLeftToLastStart(b, 10, 8);
  }

  /** On "select  * from t" with the cursor at the end, word-left (ctrl+left)
      stops at "t", then at "from", then at "*". */
  lemma {:induction false} WordLeftExample(tp: G.TermPos)
    requires G.Valid(tp) && tp.buffer == "select  * from t" && tp.index == 16
    ensures var t1 := HandleEvent(tp, KeyInput(CtrlChord(Left))).tp;
            var t2 := HandleEvent(t1, KeyInput(CtrlChord(Left))).tp;
            var t3 := HandleEvent(t2, KeyInput(CtrlChord(Left))).tp;
            t1.index == 15 && t2.index == 10 && t3.index == 8
  {
    WordLeftTargetsExample(tp.buffer);
    var t1 := HandleEvent(tp, KeyInput(CtrlChord(Left))).tp;
    assert t1 == G.WordLeft(tp);
    var t2 := HandleEvent(t1, KeyInput(CtrlChord(Left))).tp;
    assert t2 == G.WordLeft(t1);
    var t3 := HandleEvent(t2, KeyInput(CtrlChord(Left))).tp;
    assert t3 == G.WordLeft(t2);
  }
}

=== FILE: text_view.dfy ===
/** The pager (`TextView` in src/ui/text_view.rs): a window of the terminal's
    size over fixed rows of output, moved one row or column at a time. Rows are
    byte strings, since the source measures them with `String::len`. */
module Pager {
  import opened Options
  import opened Events
  import opened Ints

  type Row = seq<byte>

  datatype TextView = TextView(
    data: seq<Row>,
    x: int,        // first visible column
    y: int,        // first visible row
    maxX: int,     // terminal width
    maxY: int,     // terminal height
    maxLen: int)   // length of the longest visible row

  /** The view after an event, and whether the pager keeps running. */
  datatype Handled = Handled(view: TextView, again: bool)

  /** The fold of `_get_current_slice_max_len`: the length of the longest row, 0 for none. */
  function MaxLen(rows: seq<Row>): nat {
    if |rows| == 0 then 0 else Max(MaxLen(rows[..|rows| - 1]), |rows[|rows| - 1]|)
  }

  /** `MaxLen` is the longest row's length: no row is longer, and some row
      has exactly that length unless the result is 0. */
  lemma {:induction false} MaxLenIsMax(rows: seq<Row>)
    ensures forall i :: 0 <= i < |rows| ==> |rows[i]| <= MaxLen(rows)
    ensures MaxLen(rows) == 0 || exists i :: 0 <= i < |rows| && |rows[i]| == MaxLen(rows)
  {
    if |rows| > 0 {
      var init := rows[..|rows| - 1];
      MaxLenIsMax(init);
      assert forall i :: 0 <= i < |init| ==> rows[i] == init[i];
      if MaxLen(init) > |rows[|rows| - 1]| {
        var i :| 0 <= i < |init| && |init[i]| == MaxLen(init);
        assert rows[i] == init[i];
      }
    }
  }

  /** `_get_row_slice`: the rows from `y` on, at most a screen's height of them. */
  function RowSlice(v: TextView): (rows: seq<Row>)
    requires 0 <= v.y <= |v.data| && v.maxY >= 0
    ensures |rows| == Min(v.maxY, |v.data| - v.y)
    ensures forall i :: 0 <= i < |rows| ==> rows[i] == v.data[v.y + i]
  {
    v.data[v.y..Min(v.maxY + v.y, |v.data|)]
  }

  /** The offsets never scroll past the content: the window's last row is a
      data row (or the window starts at the top), and the window's right edge
      stays within the longest row (or it starts at column 0). */
  predicate Valid(v: TextView) {
    && v.maxX >= 0 && v.maxY >= 0
    && 0 <= v.y <= |v.data|
    && (v.y == 0 || v.y + v.maxY <= |v.data|)
    && v.maxLen == MaxLen(RowSlice(v))
    && 0 <= v.x
    && (v.x == 0 || v.x + v.maxX <= MaxLen(v.data))
  }

  /** The longest visible row is no longer than the longest row. */
  lemma {:induction false} WindowMaxLen(v: TextView)
    requires 0 <= v.y <= |v.data| && v.maxY >= 0
    ensures MaxLen(RowSlice(v)) <= MaxLen(v.data)
  {
    var rows := RowSlice(v);
    MaxLenIsMax(rows);
    MaxLenIsMax(v.data);
    if MaxLen(rows) > 0 {
      var i :| 0 <= i < |rows| && |rows[i]| == MaxLen(rows);
      assert rows[i] == v.data[v.y + i];
    }
  }

  /** `TextView::new` with the terminal size passed in: top-left corner. */
  function New(data: seq<Row>, maxX: int, maxY: int): (r: TextView)
    requires maxX >= 0 && maxY >= 0
    ensures Valid(r) && r.data == data && r.x == 0 && r.y == 0
    ensures r.maxLen == MaxLen(data[..Min(maxY, |data|)])
  {
    var v := TextView(data, 0, 0, maxX, maxY, 0);
    v.(maxLen := MaxLen(RowSlice(v)))
  }

  /** Recompute the longest visible row after a vertical move. */
  function Refresh(v: TextView): (r: TextView)
    requires 0 <= v.y <= |v.data| && v.maxY >= 0
    ensures r.maxLen == MaxLen(RowSlice(v))
    ensures r.data == v.data && r.x == v.x && r.y == v.y && r.maxX == v.maxX && r.maxY == v.maxY
  {
    v.(maxLen := MaxLen(RowSlice(v)))
  }

  /** Down: one row further, unless the last row is already on screen. */
  function ScrollDown(v: TextView): (r: TextView)
    requires Valid(v)
    ensures Valid(r) && r.data == v.data && r.maxX == v.maxX && r.maxY == v.maxY && r.x == v.x
    ensures r.y == if v.y + v.maxY < |v.data| then v.y + 1 else v.y
  {
    if v.y + v.maxY < |v.data| then
      var w := v.(y := v.y + 1);
      assert w.y + w.maxY <= |w.data|;
      Refresh(w)
    else v
  }

  /** Up: one row back, unless already at the top. */
  function ScrollUp(v: TextView): (r: TextView)
    requires Valid(v)
    ensures Valid(r) && r.data == v.data && r.maxX == v.maxX && r.maxY == v.maxY && r.x == v.x
    ensures r.y == if v.y > 0 then v.y - 1 else v.y
  {
    if v.y > 0 then
      var w := v.(y := v.y - 1);
      assert w.y + w.maxY <= |w.data|;
      Refresh(w)
    else v
  }

  /** Right: one column further, unless the longest visible row already ends on screen. */
  function ScrollRight(v: TextView): (r: TextView)
    requires Valid(v)
    ensures Valid(r) && r.data == v.data && r.maxX == v.maxX && r.maxY == v.maxY && r.y == v.y
    ensures r.x == if v.x + v.maxX < v.maxLen then v.x + 1 else v.x
  {
    if v.x + v.maxX < v.maxLen then
      WindowMaxLen(v);
      v.(x := v.x + 1)
    else v
  }

  /** Left: one column back, unless already at column 0. */
  function ScrollLeft(v: TextView): (r: TextView)
    requires Valid(v)
    ensures Valid(r) && r.data == v.data && r.maxX == v.maxX && r.maxY == v.maxY && r.y == v.y
    ensures r.x == if v.x > 0 then v.x - 1 else v.x
  {
    if v.x > 0 then v.(x := v.x - 1) else v
  }

  /** `handle_event`: arrows move the window one step unless that would pass
      the content's edge; any other plain key leaves the pager. */
  function HandleEvent(v: TextView, e: TrueEvent): (r: Handled)
    requires Valid(v)
    ensures Valid(r.view)
    ensures r.view.data == v.data && r.view.maxX == v.maxX && r.view.maxY == v.maxY
    ensures !r.again <==> e.KeyInput? && e.ke.Plain? && e.ke.key !in {Up, Down, Left, Right}
    ensures !r.again ==> r.view == v
    ensures e == KeyInput(Plain(Down)) ==> r.view == ScrollDown(v)
    ensures e == KeyInput(Plain(Up)) ==> r.view == ScrollUp(v)
    ensures e == KeyInput(Plain(Right)) ==> r.view == ScrollRight(v)
    ensures e == KeyInput(Plain(Left)) ==> r.view == ScrollLeft(v)
    ensures !(e.KeyInput? && e.ke.Plain?) ==> r == Handled(v, true)
  {
    match e
    case KeyInput(Plain(k)) =>
      (match k
       case Down => Handled(ScrollDown(v), true)
       case Up => Handled(ScrollUp(v), true)
       case Right => Handled(ScrollRight(v), true)
       case Left => Handled(ScrollLeft(v), true)
       case _ => Handled(v, false))
    case _ => Handled(v, true)
  }

  /** The first visible row never passes the last screenful of rows. */
  lemma RowBound(v: TextView)
    requires Valid(v)
    ensures v.y <= Max(0, |v.data| - v.maxY)
  {
  }

  /** Pressing Down `n` times (each press is `ScrollDown`, by `HandleEvent`'s contract). */
  function PressDown(v: TextView, n: nat): (r: TextView)
    requires Valid(v)
    ensures Valid(r)
    decreases n
  {
    if n == 0 then v else PressDown(ScrollDown(v), n - 1)
  }

  /** From the top, n presses of Down scroll n rows, but never past the last
      screenful: with 100 rows on a 20-row screen the window stops at row 80. */
  lemma {:induction false} DownStopsAtLastScreen(v: TextView, n: nat)
    requires Valid(v)
    ensures PressDown(v, n).y == Min(v.y + n, Max(v.y, |v.data| - v.maxY))
    decreases n
  {
    if n > 0 {
      DownStopsAtLastScreen(ScrollDown(v), n - 1);
    }
  }

  /** `_get_column_slice` as written: the bytes from `x` up to a screen's width
      of them, where `get(..).unwrap()` panics (None here) on a row shorter than `x`. */
  function ColumnSliceAsWritten(v: TextView, row: Row): (r: Option<Row>)
    requires v.x >= 0 && v.maxX >= 0
    ensures r.None? <==> v.x > |row|
    ensures r.Some? ==> r.value == ColumnSlice(v, row)
  {
    var hi := Min(v.maxX + v.x, |row|);
    if v.x <= hi then Some(row[v.x..hi]) else None
  }

  /** The column slice with its start clamped to the row: a row shorter than
      `x` shows as empty. */
  function ColumnSlice(v: TextView, row: Row): (r: Row)
    requires v.x >= 0 && v.maxX >= 0
    ensures |r| == Max(0, Min(v.maxX, |row| - v.x))
    ensures forall i :: 0 <= i < |r| ==> r[i] == row[v.x + i]
  {
    var hi := Min(v.maxX + v.x, |row|);
    row[Min(v.x, hi)..hi]
  }

  /** What `display` draws: the visible part of each visible row. */
  function Visible(v: TextView): (screen: seq<Row>)
    requires Valid(v)
    ensures |screen| == Min(v.maxY, |v.data| - v.y)
    ensures forall i :: 0 <= i < |screen| ==> |screen[i]| <= v.maxX
    ensures forall i :: 0 <= i < |screen| ==> screen[i] == ColumnSlice(v, v.data[v.y + i])
  {
    var rows := RowSlice(v);
    var screen := seq(|rows|, i requires 0 <= i < |rows| => ColumnSlice(v, rows[i]));
    assert forall i :: 0 <= i < |screen| ==> screen[i] == ColumnSlice(v, rows[i]) && rows[i] == v.data[v.y + i];
    screen
  }

  /** A 20-byte row followed by an empty row on a 10x2 screen: one Right
      scrolls to column 1, since the longest visible row is wider than the
      screen, while the empty row stays visible; the as-written column slice
      of that row fails, and no vertical move is needed. */
  lemma {:induction false} ColumnSlicePanicWitness(data: seq<Row>)
    requires |data| == 2 && |data[0]| == 20 && data[1] == []
    ensures var v0 := New(data, 10, 2);
            var v1 := HandleEvent(v0, KeyInput(Plain(Right))).view;
            v1.x == 1 && v1.y == 0 && RowSlice(v1) == data &&
            ColumnSliceAsWritten(v1, data[1]).None? && Visible(v1)[1] == []
  {
    var v0 := New(data, 10, 2);
    assert data[..2] == data;
    assert MaxLen([data[0]]) == 20 by {
      assert [data[0]][..0] == [];
    }
    assert MaxLen(data) == 20 by {
      assert data[..|data| - 1] == [data[0]];
    }
  }
}
